=== FILE: README.md ===
# SP-494 drone swarm: shared telemetry snapshot, publishers, controllers and monitors

This project models the part of the SP-494 swarm through which its processes talk. That part is
the shared-memory region `telemetry_shared`: exactly 4096 bytes holding the UTF-8 JSON text of one
object, which maps each drone id to that drone's latest telemetry record. The text is followed by
zero bytes.

The model covers:

- **The region** (`snapshot.dfy`). Its creation as `{}` plus zero padding. The read-modify-write
  every publisher does:
  - read the text before the first zero byte;
  - parse it, falling back to `{}`;
  - set the publisher's own entry;
  - write the result back when it fits: `< 4096` in `ucak22.py`, `<= 4096` in
    `Drone2_bayland.py`.

  The region is a class over an `array` of bytes, updated in place.
- **The ucak22 telemetry collector** (`telemetry.dfy`). Six updaters write disjoint keys of one
  dict `last`, and a publisher copies that dict into the region.
- **The Drone2_bayland publisher** (`drone2.dfy`). It builds a fourteen-key record, including an
  uptime text, and publishes it.
- **The ucak22 flocking controller tick** (`controller.dfy`):
  - up to three read attempts;
  - this drone's entry;
  - the candidates that report a latitude;
  - the nearest one, as Python's `min` picks it;
  - the choice between escape (below 10 m), flocking (10 m to 30 m) and free flight.
- **The flocking2 round** (`flocking2.py`, modelled in `flocking2.dfy`). Drone "2" follows drone
  "1" with separation weight 1.2 and cohesion weight 0.4 within 30 m.
- **The listener2 monitor** (`listener.dfy`):
  - it decodes the whole region strictly, then cuts it at the first NUL character;
  - it warns when its own entry is missing;
  - it prints every other drone's record.
- **The SwarMind control-centre dashboard** (`dashboard.dfy`):
  - its lenient reader of the region;
  - the per-drone connection state machine (start/stop commands and a poll once a second with a
    3 s timeout);
  - the status texts;
  - the GIF frame cycling.

  The dashboard object is a class whose methods update its fields.

Support modules model the Python semantics the core relies on:

- `wrappers.dfy`: `Option`, and the "split at the first separator" operation.
- `utf8.dfy`: strict and lenient UTF-8 decoding and encoding, RFC 3629.
- `pytext.dfy`: `str.strip`, `str(n)`, `f"{n:02}"` and `int(s)`.
- `json.dfy`: JSON values, dicts as ordered association lists, truthiness, `in`, `[]`, `.get`,
  and an abstract `json.dumps`/`json.loads` pair with the laws the core relies on.
- `geo.dfy`: the trigonometric functions as parameters.

Behaviour of the code worth noting:

- **Nearest-drone tie-break.** `min` keeps the first candidate of smallest distance, in dict
  order.
- **Drone2 payload size.** `Drone2_bayland.py` can write a payload of exactly 4096 bytes, which
  then leaves no terminator in the region.
- **Start does not clear the connection flag.** A start command leaves the drone's connection
  flag as it was. Only the next poll clears it.
- **Empty prefix in flocking2.** `flocking2.py` parses an empty prefix and fails, where the
  publishers read `{}`.
- **Unused dashboard status.** The dashboard's initial status "PASİF" is never chosen.

## Model

| member | source | states |
|---|---|---|
| Seqs.BeforeFirst | ucak22.py:63 | The split keeps no separator, is a prefix of the input, stops exactly at the first separator, and is the whole input when there is none |
| Seqs.BeforeFirstAppend | ucak22.py:63 | A prefix free of the separator is kept whole by the split, whatever follows it |
| Seqs.BeforeFirstOfTerminated | ucak22.py:75-76 | A payload followed by a zero byte splits back to exactly that payload |
| Utf8.DecodeChar | ucak22.py:66 | One UTF-8 character takes 1 to 4 bytes, its continuation bytes are at least 0x80, it decodes to U+0000 only from a zero byte, and ASCII decodes to itself |
| Utf8.EncodeChar | ucak22.py:73 | A character encodes to 1 to 4 bytes, starting with a zero byte only for U+0000 |
| Utf8.DecodeStrict | ucak22.py:66 | `bytes.decode("utf-8")`; its behaviour is stated by DecodeEncode, StrictDecodeCommutesWithSplit and StrictBytesBelowF5 |
| Utf8.DecodeIgnore | SwarMindGui.py:552 | `decode("utf-8", errors="ignore")`; its behaviour is stated by IgnoreAgreesWithStrict and IgnoreNulFree |
| Utf8.Encode | ucak22.py:73 | `str.encode("utf-8")`; its behaviour is stated by DecodeEncode and EncodeNulFree |
| Utf8.DecodeEncode | ucak22.py:73 | Round trip: text encoded to UTF-8 decodes strictly back to the same text |
| Utf8.EncodeNulFree | ucak22.py:73 | Text without U+0000 encodes to bytes without a zero byte, so the terminator a reader looks for is never inside a payload |
| Utf8.IgnoreAgreesWithStrict | SwarMindGui.py:552 | On well-formed bytes, decoding with errors="ignore" gives the same text as strict decoding |
| Utf8.IgnoreNulFree | SwarMindGui.py:554 | The lenient decoder produces U+0000 only from a zero byte |
| Utf8.StrictDecodeCommutesWithSplit | listener2.py:26 | Where the whole region decodes, decoding and then cutting at the first NUL equals cutting at the first zero byte and then decoding |
| Utf8.StrictBytesBelowF5 | listener2.py:26 | Bytes that decode strictly hold no byte from F5 to FF |
| PyText.Strip | SwarMindGui.py:558 | `strip()` is empty exactly for blank text, and otherwise neither starts nor ends with whitespace |
| PyText.Digits | Drone2_bayland.py:73 | `str(n)` is a non-empty digit string, with one digit exactly below 10 |
| PyText.Pad2 | Drone2_bayland.py:73 | `{n:02}` is all digits, at least two of them, and exactly two below 100 |
| PyText.DigitsDenote | Drone2_bayland.py:73 | `str(n)` reads back as n |
| PyText.Pad2Denotes | Drone2_bayland.py:73 | The zero-padded text reads back as n |
| PyText.ParseInt | SwarMindGui.py:688 | `int(s)` on a key; its behaviour is stated by ParseAllDigits and ParseDigits |
| PyText.ParseAllDigits | SwarMindGui.py:688 | `int()` of a non-empty ASCII digit string is the number it denotes |
| PyText.ParseDigits | SwarMindGui.py:688 | `int(str(n)) == n`, so a key written as a drone number is read back as that number |
| Json.Get | ucak22.py:112 | `d.get(k)` finds a value exactly when k is a key |
| Json.Put | ucak22.py:72 | `d[k] = v` makes k map to v and leaves every other key's value unchanged |
| Json.PutKeys | ucak22.py:72 | `d[k] = v` keeps the key order, and appends k at the end only when it is new |
| Json.PutWellFormed | ucak22.py:72 | Setting one entry of a dict keeps its keys distinct and its values well formed |
| Json.Index | flocking2.py:39-40 | `d[k]` succeeds exactly on a dict that has the key k |
| Json.LawfulRoundTrips | ucak22.py:67-73 | A lawful codec gives back only well-formed values, and every well-formed value is given back by some lawful codec, so the law and each read-back hypothesis can hold together |
| Snapshot.Frame | ucak22.py:75-76 | The written region is 4096 bytes: the payload, then zero bytes to the end |
| Snapshot.ReadPrefix | ucak22.py:63-70 | An empty prefix reads as `{}`; a prefix that is not valid UTF-8 reads as a failure |
| Snapshot.ReadPrefixWellFormed | ucak22.py:63-70 | Under the JSON library's law, every value the prefix reader gives back is well formed |
| Snapshot.SetEntry | ucak22.py:72 | The assignment succeeds exactly on a dict; the own entry then holds the record, and every other entry is unchanged |
| Snapshot.Merged | ucak22.py:63-72 | The object a publisher writes: the decoded prefix or `{}`, with its own entry set; its behaviour is stated by PublishKeepsPeers, UnreadablePrefixDropsPeers and MergedReadsBack |
| Snapshot.Publish | ucak22.py:59-79 | A publish that does not write leaves the region unchanged; one that writes leaves 4096 bytes |
| Snapshot.SharedRegion.Create | ucak22.py:179-183 | A fresh region holds `{}` followed by zero bytes |
| Snapshot.SharedRegion.WriteFrame | ucak22.py:75-76 | After the two slice assignments the array equals the frame of the payload |
| Snapshot.SharedRegion.PublishEntry | ucak22.py:61-78 | The in-place read-modify-write leaves the region and the status that `Publish` gives for the old contents |
| Snapshot.Open | ucak22.py:179-186 | Opening creates and initialises a region when none exists, and otherwise attaches to the existing one without changing it |
| Snapshot.ReadBack | ucak22.py:73-76 | Whatever a publisher writes, the prefix reader gets back unchanged, for every value the JSON library gives back after dumping it |
| Snapshot.InitialReadsEmpty | ucak22.py:180-182 | A freshly created region reads as the empty map |
| Snapshot.WrittenFraming | ucak22.py:74-76 | After a write the payload is followed only by zero bytes. Under `< 4096` a zero byte always ends it; under `<= 4096` a 4096-byte payload fills the region with no terminator |
| Snapshot.SizeGuard | Drone2_bayland.py:86-91 | ucak22 writes exactly when the payload is under 4096 bytes and Drone2 exactly when it is at most 4096; at exactly 4096 ucak22 leaves the region as it was |
| Snapshot.PublishKeepsPeers | ucak22.py:63-76 | After a write of a merged object the library gives back, the region reads back with the publisher's entry set to the record and every other drone's entry unchanged |
| Snapshot.UnreadablePrefixDropsPeers | ucak22.py:67-70 | Where the prefix cannot be decoded or parsed, a write replaces the whole map with the publisher's entry alone |
| Snapshot.MergedReadsBack | ucak22.py:72-76 | A written region reads back as exactly the merged object, when the library gives that object back after dumping it |
| Telemetry.Values | ucak22.py:24-56 | Each updater produces one value per key it owns |
| Telemetry.ApplySample | ucak22.py:24-56 | One updater step on `last`; its behaviour is stated by WritesOwnKeys, SamplesCommute and SamplesCommuteExactly |
| Telemetry.ApplyAll | ucak22.py:24-56 | An interleaving of updater steps applied in order; its behaviour is stated by LatestSampleWins, OtherKeysUntouched and InterleavingsAgree |
| Telemetry.PutAll | ucak22.py:27-29 | Writing several keys in turn sets each of them, when they are distinct, and leaves every other key alone |
| Telemetry.LastOfGroup | ucak22.py:24-56 | The latest sample of a stream is one of the events from that stream, and there is none exactly when the stream produced nothing |
| Telemetry.GroupsDisjoint | ucak22.py:24-56 | No key of `last` is written by two updaters |
| Telemetry.WritesOwnKeys | ucak22.py:24-56 | An updater sets each of its keys to the sample's value and changes no other key |
| Telemetry.SamplesCommute | ucak22.py:26 | Samples from two different updaters give the same value for every key in either order |
| Telemetry.PutCommutes | ucak22.py:72 | Two writes to distinct keys commute exactly, key order included, once one of the keys is present |
| Telemetry.PutPastAll | ucak22.py:27-29 | A write to a present key can be moved past writes to other keys |
| Telemetry.PutAllCommute | ucak22.py:24-56 | Two batches of writes to disjoint keys commute exactly once the first batch's keys are present |
| Telemetry.SamplesCommuteExactly | ucak22.py:24-56 | Once an updater's keys exist, its sample and another updater's sample give the same dict, key order included, in either order |
| Telemetry.LatestSampleWins | ucak22.py:24-56 | Under any interleaving, each key holds the value of its updater's latest sample, or its old value when there was none |
| Telemetry.OtherKeysUntouched | ucak22.py:21 | Keys no updater owns keep their old values |
| Telemetry.InterleavingsAgree | ucak22.py:81-89 | Two interleavings that end with the same latest sample per stream agree on every key |
| Telemetry.OwnerOf | ucak22.py:24-56 | Finds the updater that owns a key, or states that no updater writes it |
| Telemetry.Collector.constructor | ucak22.py:21-22 | The collector starts with an empty `last` |
| Telemetry.Collector.Update | ucak22.py:24-56 | An updater step changes `last` to the result of applying its sample, keeping keys distinct |
| Telemetry.Collector.Publish | ucak22.py:59-79 | One publisher round: the region and status of a `< 4096` publish of a copy of `last`; a region holding a non-object raises TypeError, which nothing catches, so the whole ucak22 process ends |
| Drone2.RecordValues | Drone2_bayland.py:59-74 | Fourteen values, numbers or strings, with the uptime text last |
| Drone2.Record | Drone2_bayland.py:59-74 | The record has exactly the fourteen keys, distinct and in source order, with the uptime under "uptime" |
| Drone2.RecordKeysDistinct | Drone2_bayland.py:59-74 | The fourteen record keys are distinct |
| Drone2.Seconds | Drone2_bayland.py:73 | `timedelta.seconds` is below 86400 |
| Drone2.UptimeAsWritten | Drone2_bayland.py:73 | The uptime text as written, from two clock readings; its behaviour is stated by UptimeAsWrittenDenotes and UptimeAsWrittenStraddlesMinute |
| Drone2.UptimeDenotes | Drone2_bayland.py:73 | The uptime text, taken from one clock reading, is minutes, a colon and two digits of seconds below 60, and together they give the seconds elapsed within the day |
| Drone2.UptimeAsWrittenDenotes | Drone2_bayland.py:73 | With two clock readings, the text shows the first reading's minutes and the second reading's seconds; it shows the later reading only when both fall in the same minute |
| Drone2.UptimeAsWrittenStraddlesMinute | Drone2_bayland.py:73 | Readings 59.9 s and 60.0 s give "00:00", which is behind both, where one reading would give "00:59" or "01:00" |
| Drone2.SendTelemetry | Drone2_bayland.py:59-91 | One round leaves the region and status of an `<= 4096` publish of the record, whose uptime takes its minutes from one clock reading and its seconds from a later one |
| Controller.FirstReadable | ucak22.py:99-110 | The first successful read in attempt order, which is absent exactly when every attempt fails |
| Controller.ReadWithRetry | ucak22.py:99-110 | Stops at the first successful read, making 1 to 3 reads, all earlier ones failed; gives up only after 3 failures |
| Controller.CalculateDistance | ucak22.py:158-166 | The 1e9 sentinel whenever a coordinate is None; any other distance means all four coordinates are numbers |
| Controller.Candidates | ucak22.py:119 | Exactly the other drones' entries reporting a latitude, in both directions; fails exactly when some other drone's entry does not support `in` |
| Controller.CandidatesInOrder | ucak22.py:119 | The candidates are the entries at the increasing positions of the dict whose entry is another drone's and reports a latitude: all of them, each once, in dict order |
| Controller.Distances | ucak22.py:125-128 | Every candidate's key succeeds exactly when the list exists, which has one distance per candidate, in order |
| Controller.FirstMinIndex | ucak22.py:125-128 | `min` picks an index whose distance is at most every other and strictly below every earlier one |
| Controller.Cruise | ucak22.py:121 | Flying on is 0.8 m/s north, level, with the drone's yaw or 0 |
| Controller.Steer | ucak22.py:131-153 | The regime is the distance's class; escape is 3.5 m/s along some bearing at the drone's yaw or 0; flocking is 1.2 m/s forward; otherwise the drone flies on |
| Controller.Nearest | ucak22.py:125-129 | A nearest candidate exists exactly when every candidate's distance can be computed; its distance is at most every candidate's and below every earlier one's, the first minimum `min` picks |
| Controller.Classify | ucak22.py:131-153 | The regime for the nearest distance; its behaviour is stated by ClassifyThresholds |
| Controller.Decide | ucak22.py:112-116 | A missing or empty own entry skips the tick; a truthy non-dict own entry raises |
| Controller.Tick | ucak22.py:112-156 | A non-object region raises; a falsy own entry skips |
| Controller.ControllerTick | ucak22.py:97-156 | Unreadable after three attempts, otherwise the decision on the first successful read |
| Controller.RegimeByNearest | ucak22.py:119-153 | Every non-alone command is steered toward the first nearest candidate, whose distance is at most every candidate's, and the regime is that distance's class |
| Controller.NearestInDictOrder | ucak22.py:119-129 | The chosen candidate is the entry at some position of the dict; its distance is at most every candidate entry's and strictly below every candidate entry at an earlier position, so ties go to the first in dict order |
| Controller.RegimeByNearestEntry | ucak22.py:119-153 | Every non-alone command is steered toward the entry at some position of the dict, the first one of smallest distance among the candidate entries, with that distance |
| Controller.ClassifyThresholds | ucak22.py:131-153 | Escape below 10 m, flocking from 10 m to 30 m inclusive, free flight above 30 m |
| Controller.AloneFliesOn | ucak22.py:119-123 | With no candidate the drone flies on at 0.8 m/s with its yaw or 0 |
| Controller.MissingOwnPositionFliesOn | ucak22.py:158-160 | With its own latitude or longitude None, the drone never escapes or flocks |
| Controller.EscapeCommandSpeed | ucak22.py:134-137 | An escape command has horizontal speed 3.5 m/s on any bearing |
| Controller.EscapeIsAlongBearing | ucak22.py:131-137 | An escape chosen by a tick is 3.5 m/s along some bearing |
| Controller.EscapeSpeedIsFixed | ucak22.py:131-137 | An escape chosen by a tick moves at exactly 3.5 m/s, horizontally |
| Controller.FlockingAndFreeFlightCommands | ucak22.py:139-153 | Flocking is 1.2 m/s forward and level; alone or free flight is 0.8 m/s with the drone's yaw or 0 |
| Controller.GetAppend | ucak22.py:112 | An entry added under another key does not change a lookup |
| Controller.CandidatesAppend | ucak22.py:119 | An added entry without "latitude" is not a candidate |
| Controller.IgnoresEntriesWithoutLatitude | ucak22.py:119 | Another drone's entry without a latitude does not change the tick |
| Flocking2.MeterDistance | flocking2.py:18-21 | The distance is the hypotenuse of its east and north components; the east component is the longitude difference times 111320 m and the cosine of the first latitude, and the north component is the latitude difference times 110540 m |
| Flocking2.Steer | flocking2.py:47-63 | A round either commands a target, waits out of sight, or raises |
| Flocking2.Follow | flocking2.py:39-45 | Following two entries either commands a target, waits out of sight, or raises |
| Flocking2.Tick | flocking2.py:35-37 | A value that does not support `in` raises |
| Flocking2.Read | flocking2.py:32-33 | The controller's strict read of the region; its behaviour is stated by ReadAgreesWithPrefix and ReadsPublished |
| Flocking2.Round | flocking2.py:30-69 | One pass of the `flock` loop, a read failure or exception ending the pass as the `except` does; its behaviour is stated by EmptyRegionRaises and WaitsForBoth |
| Flocking2.ReadAgreesWithPrefix | flocking2.py:32-33 | Reads what the publishers read when the prefix is not empty; on an empty prefix it fails where they read `{}` |
| Flocking2.ReadsPublished | flocking2.py:32-33 | Whatever a publisher wrote, this controller reads back, for every value the JSON library gives back after dumping it |
| Flocking2.EmptyRegionRaises | flocking2.py:67-69 | A region whose first byte is zero ends the round with an exception |
| Flocking2.WaitsForBoth | flocking2.py:35-37 | On a dict the round waits 0.2 s exactly when entry "2" or entry "1" is missing |
| Flocking2.TargetFormula | flocking2.py:51-63 | The target latitude is mlat − 0.8·Δlat and the target longitude mlon + Δlon·(0.4 − 1.2·cos lat); it is sent only within 30 m, at yaw 0 and at the drone's altitude |
| Flocking2.TargetLatitudeMovesAway | flocking2.py:51-59 | The target latitude is on the far side of drone "2" from drone "1" |
| Flocking2.SeeRadiusBoundary | flocking2.py:47-49 | A round commands exactly when the distance is at most 30 m; 30 m exactly still commands |
| Flocking2.CommandsFollowDroneOne | flocking2.py:39-45 | A command is computed from the numeric positions of entries "2" and "1" of a dict |
| Listener.ReadRegion | listener2.py:21-34 | A missing region reads as None; the read raises exactly when the whole region is not valid UTF-8 |
| Listener.ReadRegionWellFormed | listener2.py:21-34 | Under the JSON library's law, every value the listener reads is well formed |
| Listener.Peers | listener2.py:74-75 | Exactly the entries of other drones, in both directions, and no more entries than the dict has |
| Listener.PeersInOrder | listener2.py:74-75 | The peers are the entries at the increasing positions of the dict whose key is not this drone's: all of them, each once, in dict order |
| Listener.Displayed | listener2.py:37-51 | Fourteen values, each the record's value for its key or "N/A" |
| Listener.Show | listener2.py:74-77 | Printing raises exactly when some other drone's value is not a dict; without a raise every peer is shown; only dict-valued peers are ever shown |
| Listener.Report | listener2.py:69-77 | A missing or falsy value prints nothing |
| Listener.PassOn | listener2.py:67-77 | One pass of the listening loop on the region as it stands; its behaviour is stated by Listen, ShowsOnlyPeers and WarnsWhenOwnEntryMissing |
| Listener.Listen | listener2.py:66-80 | One pass per region state in order, stopping right after the first pass that raised |
| Listener.AgreesWithPrefixReader | listener2.py:26-27 | Where the whole region decodes, reads as the publishers' reader except that an empty prefix gives None instead of `{}` |
| Listener.IllFormedByteCrashes | listener2.py:26 | A byte from F5 to FF anywhere in the region, even after the terminator, ends the thread |
| Listener.StrayTrailingByte | listener2.py:24-34 | A fresh region whose last byte became FF reads as `{}` for the publishers but ends the listener's thread |
| Listener.ShowsOnlyPeers | listener2.py:74-77 | Only other drones are shown; without a malformed record every other drone is shown, in dict order |
| Listener.WarnsWhenOwnEntryMissing | listener2.py:69-71 | The warning appears exactly for a non-empty map without this drone's id |
| Listener.ShowsDrone2Record | listener2.py:37-51 | A Drone2 record is shown value by value, in the order it was built |
| Dashboard.StripTrailingNul | SwarMindGui.py:554 | `rstrip("\x00")` removes exactly the trailing NULs |
| Dashboard.GuiRead | SwarMindGui.py:543-567 | A missing region reads as None; blank text reads as `{}` |
| Dashboard.GuiReadWellFormed | SwarMindGui.py:543-567 | Under the JSON library's law, every value the dashboard reads is well formed |
| Dashboard.GuiReadsPublished | SwarMindGui.py:550-558 | Whatever a publisher wrote, under either size test, the dashboard reads back, for every value the JSON library gives back after dumping it |
| Dashboard.GuiZeroRegionReadsEmpty | SwarMindGui.py:558 | A region of zero bytes reads as `{}` |
| Dashboard.GuiSkipsIllFormedBytes | SwarMindGui.py:552 | On an ill-formed byte the publishers' reader fails while the dashboard drops the byte and reads `{}` |
| Dashboard.DroneOf | SwarMindGui.py:688-689 | A key names a drone exactly when `int()` reads it as 1 or 2, and then it names that number |
| Dashboard.KeyNamesDrone | SwarMindGui.py:688-689 | The keys "1" and "2" that publishers write name drones 1 and 2 |
| Dashboard.FirstRaise | SwarMindGui.py:686-697 | The position of the first entry whose value makes the loop raise, or the end when none does |
| Dashboard.NoRaiseBefore | SwarMindGui.py:686-697 | No entry before that position raises |
| Dashboard.NamedByEntry | SwarMindGui.py:688-689 | A drone named by some entry's key is among the named drones |
| Dashboard.EntryOfNamed | SwarMindGui.py:688-689 | Every named drone is named by the key of some entry, which the lemma gives |
| Dashboard.NamedDronesExactly | SwarMindGui.py:688-689 | A drone is named exactly when some entry's key names it |
| Dashboard.Step | SwarMindGui.py:686-697 | One entry: raises exactly when its key names a drone and its value is truthy but not a dict; after a raise nothing changes; otherwise the drone its key names, and only that one, is received and gets the poll time, and command states never change |
| Dashboard.IntakeAll | SwarMindGui.py:686-697 | The entries loop keeps both drones tracked, receives only 1 and 2, and never changes a command state |
| Dashboard.IntakeAllExactly | SwarMindGui.py:686-697 | The loop raises exactly when some entry raises; the drones received are exactly those named before the first raise; each of them got the poll time and every other drone is unchanged |
| Dashboard.CheckAll | SwarMindGui.py:700-711 | Each drone's state after the check is the single-drone check's result |
| Dashboard.Command | SwarMindGui.py:460-467 | The connection state after a start or stop command; its behaviour is stated by StepsKeepCoherent and StartThenSilentPoll |
| Dashboard.Receive | SwarMindGui.py:692-694 | The stamp of a drone with an entry; its behaviour is stated by StepsKeepCoherent and IntakeStamps |
| Dashboard.Check | SwarMindGui.py:700-711 | The connection check of one drone; its behaviour is stated by TimeoutRule and StepsKeepCoherent |
| Dashboard.Poll | SwarMindGui.py:677-715 | No data or falsy data: the connection check on both drones with nothing received, and polling goes on; a truthy value that is not a dict raises, leaving the state, and polling stops |
| Dashboard.PollOnObject | SwarMindGui.py:677-715 | On a dict, polling goes on exactly when no entry raises; the drones named before the first raise are stamped, and when nothing raised each drone then gets the connection check knowing whether it was named |
| Dashboard.StepsKeepCoherent | SwarMindGui.py:460-467 | Commands, stamps and checks never leave a drone connected while inactive |
| Dashboard.IntakeKeepsCoherent | SwarMindGui.py:686-697 | The entries loop never leaves a drone connected while inactive |
| Dashboard.PollKeepsCoherent | SwarMindGui.py:677-715 | A whole poll never leaves a drone connected while inactive |
| Dashboard.TimeoutRule | SwarMindGui.py:701-709 | Without data, an active drone is disconnected exactly when it was not connected, had no update, or its update is more than 3 s old; 3 s exactly keeps it |
| Dashboard.StartThenSilentPoll | SwarMindGui.py:460-467 | A start keeps the old connection flag, and the next poll without data clears it |
| Dashboard.DroneEntries | SwarMindGui.py:688-689 | Only entries of the dict whose key names drone 1 or 2 |
| Dashboard.DroneEntriesInOrder | SwarMindGui.py:688-689 | Those entries are the entries at the increasing positions whose key names a drone: all of them, each once, in dict order |
| Dashboard.IntakeSkipsOtherKeys | SwarMindGui.py:688-697 | Entries under other keys change nothing |
| Dashboard.IntakeStamps | SwarMindGui.py:692-695 | A drone with an entry is stamped with the poll time, and is connected if active |
| Dashboard.DataConnects | SwarMindGui.py:686-711 | A poll whose dict has an entry under an active drone's key "1" or "2", and no entry that raises, goes on and leaves that drone connected and stamped with the poll time |
| Dashboard.HaltedStays | SwarMindGui.py:686-691 | Once an entry raised, later entries change nothing |
| Dashboard.StatusSelection | SwarMindGui.py:623-674 | The three status texts tell the three states apart; the connection text agrees with them; labels are cleared exactly unless the drone is active and connected; "PASİF" is never chosen |
| Dashboard.AnimateStep | SwarMindGui.py:356-369 | An inactive drone or an unloaded GIF stops the animation; a loaded GIF with no frames stalls; a frame is shown exactly otherwise; a stopped or stalled step leaves the index where it was |
| Dashboard.AnimateStepInRange | SwarMindGui.py:371-382 | A running step shows an existing frame (the index, or 0 when out of range) and leaves the index in range, advanced by one modulo the frame count |
| Dashboard.GifFirstRound | SwarMindGui.py:371-382 | Started at 0, the animation goes through the frames in order and is back at 0 after n steps |
| Dashboard.GifPeriodic | SwarMindGui.py:371-382 | The animation repeats with period n |
| Dashboard.ReadEntries | SwarMindGui.py:686-697 | The imperative loop over the entries gives the state, the received set and the halt that `IntakeAll` specifies |
| Dashboard.CheckDrones | SwarMindGui.py:700-711 | The loop over drones 1 and 2 gives the state `CheckAll` specifies |
| Dashboard.ControlCenter.constructor | SwarMindGui.py:83-147 | Nothing commanded, nothing connected, no update, no GIF loaded; the constructor ends with a first poll, so the state and whether polling goes on are those of `Poll` on that initial state |
| Dashboard.ControlCenter.AnimateGif | SwarMindGui.py:356-385 | The step and the new index are those of `AnimateStep` on the old state; nothing else changes |
| Dashboard.ControlCenter.LoadGif | SwarMindGui.py:334-353 | A load that succeeds stores the frame durations and marks the GIF loaded; a failure marks it not loaded |
| Dashboard.ControlCenter.StartGif | SwarMindGui.py:474-481 | A GIF not ready is loaded first; a loaded GIF restarts at frame 0 and shows one step |
| Dashboard.ControlCenter.RestartGif | SwarMindGui.py:477-481 | A loaded GIF of an active drone restarts at frame 0 and takes one animation step from there; nothing else changes |
| Dashboard.ControlCenter.HandleCommand | SwarMindGui.py:460-481 | The drone's command state becomes the command's result; a start loads the GIF if needed and restarts it; states stay coherent |
| Dashboard.ControlCenter.UpdateTelemetry | SwarMindGui.py:677-715 | The new connection state and whether polling goes on are those of `Poll` on the old state; GIF state unchanged; states stay coherent |

## Left out

- MAVSDK and the drones themselves are not modelled. Telemetry readings are parameters (`Readings`, `Sample`). Commands are values (`Command`, `Outcome`) rather than calls.
- asyncio scheduling, threads and the sleeps are not modelled. The collector's interleavings are sequences of samples applied one at a time, which is what the lock guarantees. The sleeps appear only as `Flocking2.PauseAfter`.
- Concurrent access to the region by several processes is not modelled. Each read or write is atomic in the model. The three retry attempts take the successive region contents as a parameter.
- Floating point is not modelled: numbers are reals. `hypot`, `sin`, `cos`, `atan2`, `sqrt`, `radians` and `degrees` are fields of a `Geometry` parameter. Only `cos² + sin² = 1` is assumed, where a lemma needs it.
- The JSON library is abstract: a `Codec` pair satisfying `Lawful`. The JSON text format itself is not modelled.
- Json.Lawful: does not promise `json.loads(json.dumps(v)) == v` for every value, because numbers are reals and no map from all real-valued values to finite texts is one-to-one. Each read-back lemma requires `RoundTrips` of the value actually written instead; Python's `json` gives that for values whose numbers are finite floats.
- `Controller.Steer` computes the flocking heading (`final_yaw`) through the `Geometry` parameter. No property of that heading is stated beyond its speed components.
- Config files, `subprocess`, the tmux commands and the Tk widgets are not modelled. Colours, label text formatting and printed text are not modelled either. The listener's output is a `Pass` value, and the dashboard's status is a text-selection function.
- The dashboard label updates: the float formatting is not modelled. One exception is not modelled either: a `ValueError` from `float()` on a battery string of non-ASCII digits, caught per entry, which would skip that entry's stamp.
- `PyText.ParseInt` accepts ASCII digits only. Python's `int()` also accepts other Unicode decimal digits, so a key written with them is treated here as naming no drone.
- GIF decoding is not modelled. The load's outcome is a parameter: the frame durations, or failure. A load that fails after clearing the old frame lists is modelled as failing before clearing them. The frame images are represented by their durations, one per frame.
- The dashboard's three per-drone dicts are held as one map of `Link` values. This changes no behaviour.
- Dashboard.ControlCenter.constructor: where the first poll raises, `__init__` itself fails and the dashboard never starts. The model instead builds the object with polling stopped, so it does not capture that the window never opens.
- `ucak2.py`, `listener.py`, `sender.py` and `denemeyecalis.py` are not part of this model.

## Findings

| source | as written | input that shows it | evidently intended | confidence | as-written member | corrected member |
|---|---|---|---|---|---|---|
| Drone2_bayland.py:73 | The uptime takes its minutes from one clock reading and its seconds from a second, later reading | Readings 59.9 s and 60.0 s give "00:00" | Minutes and seconds from a single reading: "00:59" or "01:00" | not executed | Drone2.UptimeAsWrittenStraddlesMinute | Drone2.UptimeDenotes |

=== FILE: controller.dfy ===
/** One tick of the ucak22 flocking controller: read the region (up to three attempts), find
    this drone's entry, pick the nearest other drone that reports a latitude, and choose a
    velocity command by its distance: escape below 10 m, flock from 10 m to 30 m, fly on
    otherwise. Any exception inside the tick ends the tick without a command. */
module Controller {
  import opened Wrappers
  import opened Seqs
  import opened Json
  import opened Geo
  import Snapshot

  /** Read attempts per tick. */
  const Attempts: nat := 3
  const EscapeDistance: real := 10.0
  const FlockDistance: real := 30.0
  const EscapeSpeed: real := 3.5
  const FlockSpeed: real := 1.2
  const NormalSpeed: real := 0.8
  /** The distance reported when any coordinate is None: 1e9. */
  const Sentinel: real := 1000000000.0
  /** Earth radius used by the haversine formula, in metres. */
  const EarthRadius: real := 6371000.0

  /** The first snapshot, in attempt order, that reads successfully, and its value. */
  function FirstReadable(c: Codec, snapshots: seq<seq<Snapshot.byte>>): (r: Option<Json>)
    ensures r.None? <==> forall i :: 0 <= i < |snapshots| ==> Snapshot.ReadPrefix(c, snapshots[i]).None?
    ensures r.Some? ==> exists i :: 0 <= i < |snapshots| && r == Snapshot.ReadPrefix(c, snapshots[i])
  {
    if snapshots == [] then None
    else match Snapshot.ReadPrefix(c, snapshots[0])
      case Some(v) => Some(v)
      case None =>
        var r := FirstReadable(c, snapshots[1..]);
        assert forall i :: 1 <= i < |snapshots| ==> snapshots[i] == snapshots[1..][i - 1];
        r
  }

  /** The bounded retry: read the region as it stands at each attempt, stop at the first read
      that succeeds; `used` is the number of reads made. */
  method ReadWithRetry(c: Codec, snapshots: seq<seq<Snapshot.byte>>) returns (r: Option<Json>, used: nat)
    requires |snapshots| == Attempts
    ensures r == FirstReadable(c, snapshots)
    ensures 1 <= used <= Attempts
    ensures forall j :: 0 <= j < used - 1 ==> Snapshot.ReadPrefix(c, snapshots[j]).None?
    ensures r.Some? ==> r == Snapshot.ReadPrefix(c, snapshots[used - 1])
    ensures r.None? ==> used == Attempts
  {
    r, used := None, 0;
    while used < Attempts
      invariant 0 <= used <= Attempts
      invariant forall j :: 0 <= j < used ==> Snapshot.ReadPrefix(c, snapshots[j]).None?
      invariant FirstReadable(c, snapshots) == FirstReadable(c, snapshots[used..])
    {
      var attempt := Snapshot.ReadPrefix(c, snapshots[used]);
      assert snapshots[used..][1..] == snapshots[used + 1..];
      assert FirstReadable(c, snapshots[used..]) ==
        if attempt.Some? then attempt else FirstReadable(c, snapshots[used + 1..]);
      used := used + 1;
      if attempt.Some? {
        r := attempt;
        return;
      }
    }
    assert snapshots[used..] == [];
  }

  /** `VelocityNedYaw(north, east, down, yaw)`. */
  datatype Command = VelocityNedYaw(north: real, east: real, down: real, yaw: real)

  datatype Regime =
    | Alone        // no other drone reports a latitude
    | Escape       // the nearest is closer than 10 m
    | Flocking     // the nearest is 10 m to 30 m away
    | FreeFlight   // the nearest is farther than 30 m

  datatype Skip =
    | Unreadable   // all three reads failed
    | NoOwnEntry   // this drone's entry is missing or empty
    | Raised       // an exception ended the tick

  datatype TickOutcome = Issue(command: Command, regime: Regime) | Idle(reason: Skip)

  /** The haversine great-circle distance in metres. */
  function Haversine(geo: Geometry, lat1: real, lon1: real, lat2: real, lon2: real): real {
    var phi1, phi2 := geo.radians(lat1), geo.radians(lat2);
    var dphi := geo.radians(lat2 - lat1);
    var dlambda := geo.radians(lon2 - lon1);
    var s1, s2 := geo.sin(dphi / 2.0), geo.sin(dlambda / 2.0);
    var a := s1 * s1 + geo.cos(phi1) * geo.cos(phi2) * s2 * s2;
    EarthRadius * 2.0 * geo.atan2(geo.sqrt(a), geo.sqrt(1.0 - a))
  }

  /** `calculate_distance`: the sentinel when any coordinate is None, the haversine distance
      when all are numbers; None where the arithmetic raises TypeError. */
  function CalculateDistance(geo: Geometry, lat1: Json, lon1: Json, lat2: Json, lon2: Json): (r: Option<real>)
    ensures JNull in [lat1, lon1, lat2, lon2] ==> r == Some(Sentinel)
    ensures r.Some? && r.value != Sentinel ==>
      AsNumber(lat1).Some? && AsNumber(lon1).Some? && AsNumber(lat2).Some? && AsNumber(lon2).Some?
  {
    if JNull in [lat1, lon1, lat2, lon2] then Some(Sentinel)
    else match (AsNumber(lat1), AsNumber(lon1), AsNumber(lat2), AsNumber(lon2))
      case (Some(a), Some(b), Some(c), Some(d)) => Some(Haversine(geo, a, b, c, d))
      case _ => None
  }

  /** The test an entry passes to be a candidate: another drone's, reporting a latitude. */
  function IsCandidate(id: string): ((string, Json)) -> bool {
    (p: (string, Json)) => p.0 != id && Contains(p.1, "latitude") == Some(true)
  }

  /** The other drones' entries that report a latitude, in dict order; None where the
      `"latitude" in d` test raises TypeError. This drone's own entry is never tested. */
  function Candidates(fs: Fields, id: string): (r: Option<Fields>)
    ensures r.Some? ==> forall p :: p in r.value ==> p in fs && p.0 != id && Contains(p.1, "latitude") == Some(true)
    ensures r.Some? ==> forall i :: 0 <= i < |fs| && fs[i].0 != id && Contains(fs[i].1, "latitude") == Some(true) ==> fs[i] in r.value
    ensures r.None? <==> exists i :: 0 <= i < |fs| && fs[i].0 != id && Contains(fs[i].1, "latitude").None?
  {
    if fs == [] then Some([])
    else
      assert forall i :: 1 <= i < |fs| ==> fs[i] == fs[1..][i - 1];
      var rest := Candidates(fs[1..], id);
      if fs[0].0 == id then rest
      else match Contains(fs[0].1, "latitude")
        case None => None
        case Some(false) => rest
        case Some(true) => if rest.None? then None else Some([fs[0]] + rest.value)
  }

  /** The candidates keep the region's dict order: they are the entries at the positions that
      pass the test, in increasing order, so none is considered twice. */
  lemma {:induction false} CandidatesInOrder(fs: Fields, id: string)
    requires Candidates(fs, id).Some?
    ensures Picks(Candidates(fs, id).value, fs, Positions(fs, IsCandidate(id)))
  {
    if fs != [] {
      var rest := Candidates(fs[1..], id);
      assert rest.Some?;
      CandidatesInOrder(fs[1..], id);
      PicksConsPositions(fs[0], rest.value, fs[1..], IsCandidate(id));
      assert fs == [fs[0]] + fs[1..];
      assert IsCandidate(id)(fs[0]) <==> fs[0].0 != id && Contains(fs[0].1, "latitude") == Some(true);
      assert Candidates(fs, id).value == if IsCandidate(id)(fs[0]) then [fs[0]] + rest.value else rest.value;
    }
  }

  /** The key of `min`: the distance from this drone to a candidate; None where reading the
      candidate's coordinates or the arithmetic raises. */
  function DistanceTo(geo: Geometry, myLat: Json, myLon: Json, other: Json): Option<real> {
    match (Index(other, "latitude"), Index(other, "longitude"))
    case (Some(lat), Some(lon)) => CalculateDistance(geo, myLat, myLon, lat, lon)
    case _ => None
  }

  /** The keys of all candidates, in order; None where any of them raises. */
  function Distances(geo: Geometry, myLat: Json, myLon: Json, others: Fields): (r: Option<seq<real>>)
    ensures r.Some? <==> forall i :: 0 <= i < |others| ==> DistanceTo(geo, myLat, myLon, others[i].1).Some?
    ensures r.Some? ==> |r.value| == |others|
    ensures r.Some? ==> forall i :: 0 <= i < |others| ==> r.value[i] == DistanceTo(geo, myLat, myLon, others[i].1).value
  {
    if others == [] then Some([])
    else
      var first, rest := DistanceTo(geo, myLat, myLon, others[0].1), Distances(geo, myLat, myLon, others[1..]);
      assert forall i :: 1 <= i < |others| ==> others[i] == others[1..][i - 1];
      if first.Some? && rest.Some? then Some([first.value] + rest.value) else None
  }

  /** The index `min` picks: it scans in order and replaces its choice only by a strictly
      smaller key, so it returns the first of the smallest. */
  function FirstMinIndex(ds: seq<real>): (k: nat)
    requires |ds| > 0
    ensures k < |ds|
    ensures forall j :: 0 <= j < |ds| ==> ds[k] <= ds[j]
    ensures forall j :: 0 <= j < k ==> ds[k] < ds[j]
  {
    if |ds| == 1 then 0
    else
      var k := FirstMinIndex(ds[..|ds| - 1]);
      if ds[|ds| - 1] < ds[k] then |ds| - 1 else k
  }

  /** `my_yaw or 0` as the command's yaw; None where a non-number reaches the command. */
  function YawOrZero(yaw: Json): Option<real> {
    if Truthy(yaw) then AsNumber(yaw) else Some(0.0)
  }

  /** Level flight at the normal speed, keeping the drone's yaw. */
  function Cruise(yaw: Json, regime: Regime): (r: TickOutcome)
    ensures r.Issue? ==> YawOrZero(yaw).Some? && r.command == VelocityNedYaw(NormalSpeed, 0.0, 0.0, YawOrZero(yaw).value)
  {
    match YawOrZero(yaw)
    case Some(y) => Issue(VelocityNedYaw(NormalSpeed, 0.0, 0.0, y), regime)
    case None => Idle(Raised)
  }

  /** The regime for a distance to the nearest drone. */
  function Classify(dist: real): Regime {
    if dist < EscapeDistance then Escape
    else if EscapeDistance <= dist <= FlockDistance then Flocking
    else FreeFlight
  }

  /** An escape command: 3.5 m/s along the bearing `away`, level, keeping `yaw`. */
  function EscapeCommand(geo: Geometry, away: real, yaw: real): Command {
    VelocityNedYaw(EscapeSpeed * geo.cos(away), EscapeSpeed * geo.sin(away), 0.0, yaw)
  }

  /** The command for the nearest drone at distance `dist`. Escape moves straight away from it
      at 3.5 m/s. Flocking sums separation (weight 2), alignment with its yaw (weight 1) and
      cohesion (weight 1) into a heading flown at 1.2 m/s. Otherwise the drone flies on. */
  function Steer(geo: Geometry, my: Fields, nearest: Json, dist: real): (r: TickOutcome)
    ensures r.Issue? ==> r.regime == Classify(dist)
    ensures r.Issue? && r.regime == Escape ==> exists away :: r.command == EscapeCommand(geo, away, r.command.yaw)
    ensures r.Issue? && r.regime == Escape ==> YawOrZero(GetOrNone(my, "yaw")) == Some(r.command.yaw)
    ensures r.Issue? && r.regime == Flocking ==>
      r.command.north == FlockSpeed && r.command.east == 0.0 && r.command.down == 0.0
    ensures r.Issue? && r.regime == FreeFlight ==> r == Cruise(GetOrNone(my, "yaw"), FreeFlight)
  {
    var myYaw := GetOrNone(my, "yaw");
    if Classify(dist) == FreeFlight then Cruise(myYaw, FreeFlight)
    else
      var myLat, myLon := GetOrNone(my, "latitude"), GetOrNone(my, "longitude");
      var nlatJ, nlonJ := Index(nearest, "latitude"), Index(nearest, "longitude");
      if AsNumber(myLat).None? || AsNumber(myLon).None? || nlatJ.None? || nlonJ.None? then Idle(Raised)
      else if AsNumber(nlatJ.value).None? || AsNumber(nlonJ.value).None? then Idle(Raised)
      else
        var mlat, mlon := AsNumber(myLat).value, AsNumber(myLon).value;
        var nlat, nlon := AsNumber(nlatJ.value).value, AsNumber(nlonJ.value).value;
        var away := geo.atan2(mlon - nlon, mlat - nlat);
        if dist < EscapeDistance then
          (match YawOrZero(myYaw)
           case Some(y) => Issue(EscapeCommand(geo, away, y), Escape)
           case None => Idle(Raised))
        else
          (match AsNumber(Get(nearest.fields, "yaw").GetOr(JNum(0.0)))
           case None => Idle(Raised)
           case Some(nyaw) =>
             var ali := geo.radians(nyaw);
             var coh := geo.atan2(nlon - mlon, nlat - mlat);
             var vx := 2.0 * geo.cos(away) + 1.0 * geo.cos(ali) + 1.0 * geo.cos(coh);
             var vy := 2.0 * geo.sin(away) + 1.0 * geo.sin(ali) + 1.0 * geo.sin(coh);
             Issue(VelocityNedYaw(FlockSpeed, 0.0, 0.0, geo.degrees(geo.atan2(vy, vx))), Flocking))
  }

  /** The nearest candidate, as `min` picks it, and its distance. */
  function Nearest(geo: Geometry, my: Fields, others: Fields): (r: Option<(nat, real)>)
    requires others != []
    ensures var myLat, myLon := GetOrNone(my, "latitude"), GetOrNone(my, "longitude");
      r.Some? <==> forall i :: 0 <= i < |others| ==> DistanceTo(geo, myLat, myLon, others[i].1).Some?
    ensures var myLat, myLon := GetOrNone(my, "latitude"), GetOrNone(my, "longitude");
      r.Some? ==>
        && r.value.0 < |others|
        && DistanceTo(geo, myLat, myLon, others[r.value.0].1) == Some(r.value.1)
        && (forall j :: 0 <= j < |others| ==> r.value.1 <= DistanceTo(geo, myLat, myLon, others[j].1).value)
        && (forall j :: 0 <= j < r.value.0 ==> r.value.1 < DistanceTo(geo, myLat, myLon, others[j].1).value)
  {
    match Distances(geo, GetOrNone(my, "latitude"), GetOrNone(my, "longitude"), others)
    case None => None
    case Some(ds) => var k := FirstMinIndex(ds); Some((k, ds[k]))
  }

  /** The decision once this drone's entry and the candidates are known. */
  function Decide(geo: Geometry, my: Json, candidates: Option<Fields>): (r: TickOutcome)
    ensures !Truthy(my) ==> r == Idle(NoOwnEntry)
    ensures Truthy(my) && !my.JObj? ==> r == Idle(Raised)
  {
    if !Truthy(my) then Idle(NoOwnEntry)
    else if !my.JObj? then Idle(Raised)
    else match candidates
      case None => Idle(Raised)
      case Some(others) =>
        if others == [] then Cruise(GetOrNone(my.fields, "yaw"), Alone)
        else
          (match Nearest(geo, my.fields, others)
           case None => Idle(Raised)
           case Some((k, dist)) => Steer(geo, my.fields, others[k].1, dist))
  }

  /** The decision of one tick on the object read from the region: `all_data.get` raises
      AttributeError where it is not an object. */
  function Tick(geo: Geometry, all: Json, id: string): (r: TickOutcome)
    ensures all.JObj? && !Truthy(GetOrNone(all.fields, id)) ==> r == Idle(NoOwnEntry)
    ensures !all.JObj? ==> r == Idle(Raised)
  {
    if all.JObj? then Decide(geo, GetOrNone(all.fields, id), Candidates(all.fields, id))
    else Idle(Raised)
  }

  /** The whole tick: read with retry, then decide. */
  method ControllerTick(geo: Geometry, c: Codec, snapshots: seq<seq<Snapshot.byte>>, id: string)
    returns (outcome: TickOutcome)
    requires |snapshots| == Attempts
    ensures outcome == match FirstReadable(c, snapshots)
      case None => Idle(Unreadable)
      case Some(all) => Tick(geo, all, id)
  {
    var all, _ := ReadWithRetry(c, snapshots);
    if all.None? {
      return Idle(Unreadable);
    }
    outcome := Tick(geo, all.value, id);
  }

  /** Any command other than flying on alone is chosen for the nearest candidate, which is no
      farther than any other candidate and strictly nearer than every candidate before it, and
      its regime is the one for that distance. */
  lemma RegimeByNearest(geo: Geometry, fs: Fields, id: string)
    requires Tick(geo, JObj(fs), id).Issue? && Tick(geo, JObj(fs), id).regime != Alone
    ensures var my := GetOrNone(fs, id);
      && my.JObj? && Candidates(fs, id).Some? && Candidates(fs, id).value != []
      && var others := Candidates(fs, id).value;
      && Distances(geo, GetOrNone(my.fields, "latitude"), GetOrNone(my.fields, "longitude"), others).Some?
      && Nearest(geo, my.fields, others).Some?
      && var ds := Distances(geo, GetOrNone(my.fields, "latitude"), GetOrNone(my.fields, "longitude"), others).value;
      && var (k, dist) := Nearest(geo, my.fields, others).value;
      && |ds| == |others| && k < |ds| && dist == ds[k]
      && (forall j :: 0 <= j < |ds| ==> dist <= ds[j])
      && (forall j :: 0 <= j < k ==> dist < ds[j])
      && Tick(geo, JObj(fs), id) == Steer(geo, my.fields, others[k].1, dist)
      && Tick(geo, JObj(fs), id).regime == Classify(dist)
  {
  }

  /** The nearest candidate seen on the region's entries in dict order: it sits at an entry
      `m` that passes the candidate test, no farther than any candidate entry and strictly
      nearer than every candidate entry before it, so that ties go to the first in dict order. */
  lemma NearestInDictOrder(geo: Geometry, my: Fields, fs: Fields, id: string) returns (m: nat)
    requires Candidates(fs, id).Some? && Candidates(fs, id).value != []
    requires Nearest(geo, my, Candidates(fs, id).value).Some?
    ensures var myLat, myLon := GetOrNone(my, "latitude"), GetOrNone(my, "longitude");
      var near := Nearest(geo, my, Candidates(fs, id).value).value;
      && m < |fs| && IsCandidate(id)(fs[m]) && fs[m] == Candidates(fs, id).value[near.0]
      && (forall i :: 0 <= i < |fs| && IsCandidate(id)(fs[i]) ==>
            DistanceTo(geo, myLat, myLon, fs[i].1).Some? && near.1 <= DistanceTo(geo, myLat, myLon, fs[i].1).value)
      && (forall i :: 0 <= i < m && IsCandidate(id)(fs[i]) ==> near.1 < DistanceTo(geo, myLat, myLon, fs[i].1).value)
  {
    var myLat, myLon := GetOrNone(my, "latitude"), GetOrNone(my, "longitude");
    var others := Candidates(fs, id).value;
    var near := Nearest(geo, my, others).value;
    var ix := Positions(fs, IsCandidate(id));
    CandidatesInOrder(fs, id);
    m := ix[near.0];
    forall i | 0 <= i < |fs| && IsCandidate(id)(fs[i])
      ensures DistanceTo(geo, myLat, myLon, fs[i].1).Some? && near.1 <= DistanceTo(geo, myLat, myLon, fs[i].1).value
      ensures i < m ==> near.1 < DistanceTo(geo, myLat, myLon, fs[i].1).value
    {
      var j := CandidateSlot(ix, i);
      assert others[j] == fs[i];
      if i < m {
        SlotBefore(ix, i, near.0);
      }
    }
  }

  /** In an increasing index list, an index below the one at slot `k` sits at a slot before `k`. */
  lemma SlotBefore(ix: seq<nat>, i: nat, k: nat)
    requires Increasing(ix) && i in ix && k < |ix| && i < ix[k]
    ensures CandidateSlot(ix, i) < k
  {
    var j := CandidateSlot(ix, i);
  }

  /** On the region's entries: any command other than flying on alone is steered toward the
      candidate entry `m` that `NearestInDictOrder` describes, at its distance. */
  lemma RegimeByNearestEntry(geo: Geometry, fs: Fields, id: string) returns (m: nat)
    requires Tick(geo, JObj(fs), id).Issue? && Tick(geo, JObj(fs), id).regime != Alone
    ensures var my := GetOrNone(fs, id);
      && my.JObj? && m < |fs| && IsCandidate(id)(fs[m])
      && var myLat, myLon := GetOrNone(my.fields, "latitude"), GetOrNone(my.fields, "longitude");
      && DistanceTo(geo, myLat, myLon, fs[m].1).Some?
      && var dist := DistanceTo(geo, myLat, myLon, fs[m].1).value;
      && Tick(geo, JObj(fs), id) == Steer(geo, my.fields, fs[m].1, dist)
      && (forall i :: 0 <= i < |fs| && IsCandidate(id)(fs[i]) ==>
            DistanceTo(geo, myLat, myLon, fs[i].1).Some? && dist <= DistanceTo(geo, myLat, myLon, fs[i].1).value)
      && (forall i :: 0 <= i < m && IsCandidate(id)(fs[i]) ==> dist < DistanceTo(geo, myLat, myLon, fs[i].1).value)
  {
    RegimeByNearest(geo, fs, id);
    var my := GetOrNone(fs, id).fields;
    m := NearestInDictOrder(geo, my, fs, id);
  }

  /** Where the index `i` sits in an index list that holds it. */
  function CandidateSlot(ix: seq<nat>, i: nat): (j: nat)
    requires i in ix
    ensures j < |ix| && ix[j] == i
  {
    if ix[0] == i then 0 else 1 + CandidateSlot(ix[1..], i)
  }

  /** The three regimes split the distances at 10 m (escape below) and 30 m (flocking up to
      and including it). */
  lemma ClassifyThresholds(dist: real)
    ensures Classify(dist) == Escape <==> dist < 10.0
    ensures Classify(dist) == Flocking <==> 10.0 <= dist <= 30.0
    ensures Classify(dist) == FreeFlight <==> dist > 30.0
  {
  }

  /** With no candidate the drone flies on at 0.8 m/s with its own yaw, or 0 when it has none. */
  lemma AloneFliesOn(geo: Geometry, fs: Fields, id: string)
    requires GetOrNone(fs, id).JObj? && Truthy(GetOrNone(fs, id))
    requires Candidates(fs, id) == Some([])
    requires YawOrZero(GetOrNone(GetOrNone(fs, id).fields, "yaw")).Some?
    ensures Tick(geo, JObj(fs), id)
      == Issue(VelocityNedYaw(0.8, 0.0, 0.0, YawOrZero(GetOrNone(GetOrNone(fs, id).fields, "yaw")).value), Alone)
  {
  }

  /** When this drone's own latitude or longitude is None or missing, every distance is the
      sentinel, so the drone never escapes or flocks. */
  lemma MissingOwnPositionFliesOn(geo: Geometry, fs: Fields, id: string)
    requires GetOrNone(fs, id).JObj?
    requires var my := GetOrNone(fs, id).fields;
      GetOrNone(my, "latitude") == JNull || GetOrNone(my, "longitude") == JNull
    ensures Tick(geo, JObj(fs), id).Issue? ==> Tick(geo, JObj(fs), id).regime in {Alone, FreeFlight}
  {
    var r := Tick(geo, JObj(fs), id);
    if r.Issue? && r.regime != Alone {
      RegimeByNearest(geo, fs, id);
      var my := GetOrNone(fs, id).fields;
      var others := Candidates(fs, id).value;
      var ds := Distances(geo, GetOrNone(my, "latitude"), GetOrNone(my, "longitude"), others).value;
      var (k, dist) := Nearest(geo, my, others).value;
      assert ds[k] == DistanceTo(geo, GetOrNone(my, "latitude"), GetOrNone(my, "longitude"), others[k].1).value;
      assert dist == Sentinel;
    }
  }

  /** The square of a command's horizontal speed. */
  function SpeedSquared(cmd: Command): real {
    cmd.north * cmd.north + cmd.east * cmd.east
  }

  /** An escape command has speed 3.5 m/s whatever its bearing. */
  lemma EscapeCommandSpeed(geo: Geometry, away: real, yaw: real)
    requires Pythagorean(geo)
    ensures SpeedSquared(EscapeCommand(geo, away, yaw)) == 3.5 * 3.5
  {
    var s, c := geo.sin(away), geo.cos(away);
    assert OnUnitCircle(geo, away);
    assert (EscapeSpeed * c) * (EscapeSpeed * c) + (EscapeSpeed * s) * (EscapeSpeed * s)
      == EscapeSpeed * EscapeSpeed * (s * s + c * c);
  }

  /** An escape command chosen by a tick moves along some bearing at 3.5 m/s. */
  lemma EscapeIsAlongBearing(geo: Geometry, fs: Fields, id: string)
    requires Tick(geo, JObj(fs), id).Issue? && Tick(geo, JObj(fs), id).regime == Escape
    ensures var cmd := Tick(geo, JObj(fs), id).command;
      exists away :: cmd == EscapeCommand(geo, away, cmd.yaw)
  {
    RegimeByNearest(geo, fs, id);
  }

  /** An escape command moves at exactly 3.5 m/s, horizontally. */
  lemma EscapeSpeedIsFixed(geo: Geometry, fs: Fields, id: string)
    requires Pythagorean(geo)
    requires Tick(geo, JObj(fs), id).Issue? && Tick(geo, JObj(fs), id).regime == Escape
    ensures SpeedSquared(Tick(geo, JObj(fs), id).command) == 3.5 * 3.5
    ensures Tick(geo, JObj(fs), id).command.down == 0.0
  {
    EscapeIsAlongBearing(geo, fs, id);
    var cmd := Tick(geo, JObj(fs), id).command;
    var away :| cmd == EscapeCommand(geo, away, cmd.yaw);
    EscapeCommandSpeed(geo, away, cmd.yaw);
  }

  /** Flocking flies forward at 1.2 m/s with no sideways or vertical component; flying on,
      alone or with the nearest drone beyond 30 m, is 0.8 m/s with the drone's own yaw or 0. */
  lemma FlockingAndFreeFlightCommands(geo: Geometry, fs: Fields, id: string)
    requires Tick(geo, JObj(fs), id).Issue?
    ensures var r := Tick(geo, JObj(fs), id);
      && (r.regime == Flocking ==> r.command.north == 1.2 && r.command.east == 0.0 && r.command.down == 0.0)
      && (r.regime in {Alone, FreeFlight} ==>
            r.command == VelocityNedYaw(0.8, 0.0, 0.0, YawOrZero(GetOrNone(GetOrNone(fs, id).fields, "yaw")).value))
  {
    if Tick(geo, JObj(fs), id).regime != Alone {
      RegimeByNearest(geo, fs, id);
    }
  }

  /** Looking up a key is not affected by an entry appended under another key. */
  lemma {:induction false} GetAppend(fs: Fields, p: (string, Json), k: string)
    requires p.0 != k
    ensures Get(fs + [p], k) == Get(fs, k)
  {
    if fs != [] {
      assert (fs + [p])[1..] == fs[1..] + [p];
      GetAppend(fs[1..], p, k);
    }
  }

  /** An appended entry without a "latitude" key is not a candidate. */
  lemma {:induction false} CandidatesAppend(fs: Fields, p: (string, Json), id: string)
    requires Contains(p.1, "latitude") == Some(false)
    ensures Candidates(fs + [p], id) == Candidates(fs, id)
  {
    if fs == [] {
      assert Candidates([p], id) == Candidates([], id) by {
        assert [p][1..] == [];
      }
    } else {
      assert (fs + [p])[1..] == fs[1..] + [p];
      CandidatesAppend(fs[1..], p, id);
    }
  }

  /** Another drone's entry that has no "latitude" key does not change the tick. */
  lemma IgnoresEntriesWithoutLatitude(geo: Geometry, fs: Fields, id: string, other: string, entry: Fields)
    requires other != id && "latitude" !in Keys(entry)
    ensures Tick(geo, JObj(fs + [(other, JObj(entry))]), id) == Tick(geo, JObj(fs), id)
  {
    GetAppend(fs, (other, JObj(entry)), id);
    CandidatesAppend(fs, (other, JObj(entry)), id);
    assert GetOrNone(fs + [(other, JObj(entry))], id) == GetOrNone(fs, id);
  }
}

=== FILE: dashboard.dfy ===
/** The SwarMind control-centre dashboard: its reader of the shared region, the per-drone
    connection state machine driven by start/stop commands and by a poll of the region once a
    second, the status texts chosen from that state, and the frame cycling of the drone GIF. */
module Dashboard {
  import opened Wrappers
  import opened Seqs
  import opened Json
  import PyText
  import Utf8
  import Snapshot

  // ----- Reading the region -----

  /** `str.rstrip("\x00")`. */
  function StripTrailingNul(s: string): (r: string)
    ensures r <= s && (r == [] || r[|r| - 1] != '\0')
    ensures forall i :: |r| <= i < |s| ==> s[i] == '\0'
    ensures '\0' !in s ==> r == s
  {
    if s == [] || s[|s| - 1] != '\0' then s else StripTrailingNul(s[..|s| - 1])
  }

  /** The text the dashboard parses: the bytes before the first zero byte, or the whole region
      with trailing NULs stripped when it has none, decoded dropping ill-formed bytes. */
  function GuiText(buf: seq<Snapshot.byte>): string {
    if 0 in buf then Utf8.DecodeIgnore(BeforeFirst(buf, 0))
    else StripTrailingNul(Utf8.DecodeIgnore(buf))
  }

  /** `read_shared_memory` of the dashboard: blank text reads as `{}`; a missing region or text
      that is not JSON reads as None. */
  function GuiRead(c: Codec, region: Option<seq<Snapshot.byte>>): (r: Option<Json>)
    ensures region.None? ==> r.None?
    ensures region.Some? && PyText.AllSpace(GuiText(region.value)) ==> r == Some(JObj([]))
  {
    match region
    case None => None
    case Some(buf) =>
      var text := GuiText(buf);
      if PyText.AllSpace(text) then Some(JObj([])) else c.parse(text)
  }

  /** Under the JSON library's law, every value the dashboard reads is well formed. */
  lemma GuiReadWellFormed(c: Codec, region: Option<seq<Snapshot.byte>>)
    requires Lawful(c)
    ensures GuiRead(c, region).Some? ==> WellFormed(GuiRead(c, region).value)
  {
  }

  /** Whatever a publisher wrote, under either size test, the dashboard reads back. */
  lemma GuiReadsPublished(c: Codec, v: Json)
    requires Lawful(c) && RoundTrips(c, v)
    requires |Snapshot.Encoded(c, v)| <= Snapshot.Capacity
    ensures GuiRead(c, Some(Snapshot.Frame(Snapshot.Encoded(c, v)))) == Some(v)
  {
    var text := c.dump(v);
    var e := Snapshot.Encoded(c, v);
    var f := Snapshot.Frame(e);
    Utf8.EncodeNulFree(text);
    Utf8.DecodeEncode(text);
    Utf8.IgnoreAgreesWithStrict(e);
    assert Utf8.DecodeIgnore(e) == text;
    if |e| < Snapshot.Capacity {
      assert f == e + [0] + f[|e| + 1..];
      BeforeFirstOfTerminated(e, 0, f[|e| + 1..]);
      assert f[|e|] == 0;
      assert GuiText(f) == text;
    } else {
      assert f == e;
      assert GuiText(f) == text;
    }
    assert !PyText.AllSpace(text) by {
      assert text != [] && !PyText.IsSpace(text[0]);
    }
  }

  /** A region of zero bytes only reads as `{}`. */
  lemma GuiZeroRegionReadsEmpty(c: Codec)
    ensures GuiRead(c, Some(Repeat(0, Snapshot.Capacity))) == Some(JObj([]))
  {
    var z: seq<Snapshot.byte> := Repeat(0, Snapshot.Capacity);
    assert z[0] == 0;
    assert BeforeFirst(z, 0) == [];
  }

  /** Where the prefix holds an ill-formed byte, the publishers' reader fails (and a publisher
      starts again from `{}`), while the dashboard drops the byte and reads what is left. */
  lemma GuiSkipsIllFormedBytes(c: Codec)
    requires Lawful(c)
    ensures var buf := Snapshot.Frame([0x7B, 0xFF, 0x7D]);
      && GuiRead(c, Some(buf)) == Some(JObj([]))
      && Snapshot.ReadPrefix(c, buf) == None
  {
    var p: seq<Snapshot.byte> := [0x7B, 0xFF, 0x7D];
    var buf := Snapshot.Frame(p);
    assert buf == p + [0] + buf[4..];
    BeforeFirstOfTerminated(p, 0, buf[4..]);
    assert p[1..] == [0xFF, 0x7D] && p[2..] == [0x7D];
    assert Utf8.DecodeIgnore([0x7D]) == "}";
    assert Utf8.DecodeIgnore([0xFF, 0x7D]) == "}";
    assert Utf8.DecodeIgnore(p) == "{}";
    assert !PyText.IsSpace('{');
    assert Utf8.DecodeStrict([0xFF, 0x7D]) == None;
  }

  // ----- The connection state machine -----

  /** The drones the dashboard tracks. */
  const Drones: set<int> := {1, 2}

  /** `TIMEOUT_THRESHOLD`, in seconds. */
  const TimeoutThreshold: real := 3.0

  /** One drone's entries in `drone_process_commanded_active`, `is_drone_connected_via_telemetry`
      and `last_telemetry_update_time`. */
  datatype Link = Link(active: bool, connected: bool, lastUpdate: real)

  /** A drone counts as connected only while its process is commanded active. */
  predicate Coherent(l: Link) {
    l.connected ==> l.active
  }

  type Links = map<int, Link>

  predicate Tracked(ls: Links) {
    ls.Keys == Drones
  }

  predicate AllCoherent(ls: Links) {
    forall d :: d in ls ==> Coherent(ls[d])
  }

  /** The state part of `handle_drone_process_command`: a stop clears the connection, a start
      leaves it as it was, and both restart the timeout. */
  function Command(l: Link, start: bool): Link {
    Link(start, if start then l.connected else false, 0.0)
  }

  /** An entry of this drone was found in the region at time `now`. */
  function Receive(l: Link, now: real): Link {
    Link(l.active, if l.active then true else l.connected, now)
  }

  /** The connection check at the end of a poll. */
  function Check(l: Link, received: bool, now: real): Link {
    if !l.active then l.(connected := false)
    else if received then l
    else if l.lastUpdate > 0.0 && now - l.lastUpdate > TimeoutThreshold then l.(connected := false)
    else if l.lastUpdate == 0.0 then l.(connected := false)
    else l
  }

  /** The drone a key names: `int(key)` when it is 1 or 2; None for any other key, including one
      `int` rejects with ValueError, which the poll catches per entry. */
  function DroneOf(key: string): (r: Option<int>)
    ensures r.Some? ==> r.value in Drones
    ensures r.Some? <==> PyText.ParseInt(key).Some? && PyText.ParseInt(key).value in Drones
    ensures r.Some? ==> r == PyText.ParseInt(key)
  {
    match PyText.ParseInt(key)
    case Some(d) => if d in Drones then Some(d) else None
    case None => None
  }

  /** The keys "1" and "2", as `str(d)` writes them, name drones 1 and 2. */
  lemma KeyNamesDrone(d: int)
    requires d in Drones
    ensures DroneOf(PyText.Digits(d)) == Some(d)
  {
    PyText.ParseDigits(d);
  }

  /** The entry's key names a drone. */
  predicate NamesDrone(entry: (string, Json)) {
    DroneOf(entry.0).Some?
  }

  /** The entry stops the loop: its key names a drone, and its value is truthy but not an
      object, so `telemetry.get` raises AttributeError. */
  predicate Raises(entry: (string, Json)) {
    NamesDrone(entry) && Truthy(entry.1) && !entry.1.JObj?
  }

  /** The position of the first entry that raises; `|fs|` when none does. */
  function FirstRaise(fs: Fields): (k: nat)
    ensures k <= |fs|
    ensures k < |fs| ==> Raises(fs[k])
    decreases |fs|
  {
    if fs == [] then 0
    else
      var k := FirstRaise(fs[..|fs| - 1]);
      assert k < |fs| - 1 ==> fs[..|fs| - 1][k] == fs[k];
      if k < |fs| - 1 then k else if Raises(fs[|fs| - 1]) then |fs| - 1 else |fs|
  }

  /** No entry before the first raise raises. */
  lemma {:induction false} NoRaiseBefore(fs: Fields, i: nat)
    requires i < FirstRaise(fs)
    ensures !Raises(fs[i])
    decreases |fs|
  {
    var init := fs[..|fs| - 1];
    if i < FirstRaise(init) {
      NoRaiseBefore(init, i);
      assert init[i] == fs[i];
    }
  }

  /** The drone one entry's key names, as a set of at most one. */
  function EntryDrone(entry: (string, Json)): (r: set<int>)
    ensures r <= Drones
  {
    if NamesDrone(entry) then {DroneOf(entry.0).value} else {}
  }

  /** The drones some key names. */
  function NamedDrones(fs: Fields): (r: set<int>)
    ensures r <= Drones
    decreases |fs|
  {
    if fs == [] then {} else NamedDrones(fs[..|fs| - 1]) + EntryDrone(fs[|fs| - 1])
  }

  /** A drone some entry's key names is among the named drones. */
  lemma {:induction false} NamedByEntry(fs: Fields, i: nat)
    requires i < |fs| && NamesDrone(fs[i])
    ensures DroneOf(fs[i].0).value in NamedDrones(fs)
    decreases |fs|
  {
    var init, last := fs[..|fs| - 1], fs[|fs| - 1];
    assert NamedDrones(fs) == NamedDrones(init) + EntryDrone(last);
    if i < |init| {
      assert init[i] == fs[i];
      NamedByEntry(init, i);
    } else {
      assert fs[i] == last;
      assert EntryDrone(last) == {DroneOf(last.0).value};
    }
  }

  /** Every named drone is named by the key of some entry. */
  lemma {:induction false} EntryOfNamed(fs: Fields, d: int) returns (i: nat)
    requires d in NamedDrones(fs)
    ensures i < |fs| && DroneOf(fs[i].0) == Some(d)
    decreases |fs|
  {
    var init := fs[..|fs| - 1];
    assert NamedDrones(fs) == NamedDrones(init) + EntryDrone(fs[|fs| - 1]);
    if d in NamedDrones(init) {
      i := EntryOfNamed(init, d);
      assert init[i] == fs[i];
    } else {
      i := |fs| - 1;
    }
  }

  /** A drone is named exactly when the key of some entry names it. */
  lemma NamedDronesExactly(fs: Fields, d: int)
    ensures d in NamedDrones(fs) <==> exists i :: 0 <= i < |fs| && DroneOf(fs[i].0) == Some(d)
  {
    if d in NamedDrones(fs) {
      var i := EntryOfNamed(fs, d);
    }
    if exists i :: 0 <= i < |fs| && DroneOf(fs[i].0) == Some(d) {
      var i :| 0 <= i < |fs| && DroneOf(fs[i].0) == Some(d);
      NamedByEntry(fs, i);
    }
  }

  /** The state after the loop over the region's entries, the drones that had an entry, and
      whether the loop raised. A truthy entry that is not an object makes `telemetry.get` raise
      AttributeError, which nothing catches: the poll ends there, keeping what it changed. */
  datatype Intake = Intake(links: Links, received: set<int>, halted: bool)

  /** The loop body for one entry. */
  function Step(prev: Intake, entry: (string, Json), now: real): (r: Intake)
    requires Tracked(prev.links) && prev.received <= Drones
    ensures Tracked(r.links) && r.received <= Drones
    ensures forall d :: d in Drones ==> r.links[d].active == prev.links[d].active
    ensures r.halted <==> prev.halted || Raises(entry)
    ensures r.halted ==> r.links == prev.links && r.received == prev.received
    ensures !r.halted ==> r.received == prev.received + EntryDrone(entry)
    ensures !r.halted ==> forall d :: d in Drones ==>
      r.links[d] == if DroneOf(entry.0) == Some(d) then Receive(prev.links[d], now) else prev.links[d]
  {
    if prev.halted then prev
    else match DroneOf(entry.0)
      case None => prev
      case Some(d) =>
        if Truthy(entry.1) && !entry.1.JObj? then prev.(halted := true)
        else Intake(prev.links[d := Receive(prev.links[d], now)], prev.received + {d}, false)
  }

  /** The loop over the entries, in dict order. */
  function IntakeAll(ls: Links, fs: Fields, now: real): (r: Intake)
    requires Tracked(ls)
    ensures Tracked(r.links) && r.received <= Drones
    ensures forall d :: d in Drones ==> r.links[d].active == ls[d].active
    decreases |fs|
  {
    if fs == [] then Intake(ls, {}, false)
    else Step(IntakeAll(ls, fs[..|fs| - 1], now), fs[|fs| - 1], now)
  }

  /** What the loop leaves: it raises exactly when some entry raises; the drones it received
      are exactly those named before the first entry that raises; each of them got the poll
      time, and every other drone is as it was. */
  lemma {:induction false} IntakeAllExactly(ls: Links, fs: Fields, now: real)
    requires Tracked(ls)
    ensures var r := IntakeAll(ls, fs, now);
      && (r.halted <==> FirstRaise(fs) < |fs|)
      && r.received == NamedDrones(fs[..FirstRaise(fs)])
      && forall d :: d in Drones ==> r.links[d] == if d in r.received then Receive(ls[d], now) else ls[d]
    decreases |fs|
  {
    if fs != [] {
      var init, last := fs[..|fs| - 1], fs[|fs| - 1];
      var prev := IntakeAll(ls, init, now);
      IntakeAllExactly(ls, init, now);
      IntakeStep(fs, FirstRaise(init));
      var r := Step(prev, last, now);
      assert IntakeAll(ls, fs, now) == r;
      assert !prev.halted ==> init[..FirstRaise(init)] == init;
      assert r.received == NamedDrones(fs[..FirstRaise(fs)]);
      forall d | d in Drones
        ensures r.links[d] == if d in r.received then Receive(ls[d], now) else ls[d]
      {
        if !r.halted {
          assert d in r.received <==> d in prev.received || DroneOf(last.0) == Some(d);
        }
      }
    }
  }

  /** How the prefix before the first raise grows by one entry. */
  lemma IntakeStep(fs: Fields, k: nat)
    requires fs != [] && k == FirstRaise(fs[..|fs| - 1])
    ensures k < |fs| - 1 ==> FirstRaise(fs) == k && fs[..k] == fs[..|fs| - 1][..k]
    ensures k == |fs| - 1 && Raises(fs[k]) ==> FirstRaise(fs) == k && fs[..k] == fs[..|fs| - 1]
    ensures k == |fs| - 1 && !Raises(fs[k]) ==>
      && FirstRaise(fs) == |fs|
      && NamedDrones(fs[..|fs|]) == NamedDrones(fs[..|fs| - 1]) + EntryDrone(fs[k])
  {
    var init, last := fs[..|fs| - 1], fs[|fs| - 1];
    assert FirstRaise(fs) == if k < |init| then k else if Raises(last) then |init| else |fs|;
    if k < |init| {
      assert fs[..k] == init[..k];
    } else if !Raises(last) {
      assert fs[..|fs|] == fs;
      assert NamedDrones(fs) == NamedDrones(init) + EntryDrone(last);
    } else {
      assert fs[..k] == init;
    }
  }

  /** The connection check for both drones. */
  function CheckAll(ls: Links, received: set<int>, now: real): (r: Links)
    requires Tracked(ls)
    ensures Tracked(r)
    ensures forall d :: d in Drones ==> r[d] == Check(ls[d], d in received, now)
  {
    ls[1 := Check(ls[1], 1 in received, now)][2 := Check(ls[2], 2 in received, now)]
  }

  /** One `update_telemetry` poll on what was read: the new state, and whether polling goes on.
      A truthy value that is not an object makes `.items()` raise, ending the polling. */
  function Poll(ls: Links, shared: Option<Json>, now: real): (r: (Links, bool))
    requires Tracked(ls)
    ensures Tracked(r.0)
    ensures shared.None? || !Truthy(shared.value) ==> r == (CheckAll(ls, {}, now), true)
    ensures shared.Some? && Truthy(shared.value) && !shared.value.JObj? ==> r == (ls, false)
  {
    if shared.None? || !Truthy(shared.value) then (CheckAll(ls, {}, now), true)
    else match shared.value
      case JObj(fs) =>
        var i := IntakeAll(ls, fs, now);
        if i.halted then (i.links, false) else (CheckAll(i.links, i.received, now), true)
      case _ => (ls, false)
  }

  /** A poll on an object: polling goes on exactly when no entry raises; each drone named
      before the first entry that raises got the poll time; and when no entry raised, the
      connection check then ran on every drone, knowing which of them were named. */
  lemma PollOnObject(ls: Links, fs: Fields, now: real)
    requires Tracked(ls)
    ensures var r := Poll(ls, Some(JObj(fs)), now);
      var got := NamedDrones(fs[..FirstRaise(fs)]);
      && (r.1 <==> FirstRaise(fs) == |fs|)
      && forall d :: d in Drones ==>
        var l := if d in got then Receive(ls[d], now) else ls[d];
        r.0[d] == if r.1 then Check(l, d in got, now) else l
  {
    IntakeAllExactly(ls, fs, now);
  }

  /** Two tracked states that agree on both drones are the same. */
  lemma SameLinks(a: Links, b: Links)
    requires Tracked(a) && Tracked(b) && forall d :: d in Drones ==> a[d] == b[d]
    ensures a == b
  {
  }

  /** Every step keeps a connected drone active. */
  lemma StepsKeepCoherent(l: Link, start: bool, received: bool, now: real)
    ensures Coherent(Command(l, start))
    ensures Coherent(l) ==> Coherent(Receive(l, now)) && Coherent(Check(l, received, now))
  {
  }

  /** The loop over the entries keeps every connected drone active. */
  lemma {:induction false} IntakeKeepsCoherent(ls: Links, fs: Fields, now: real)
    requires Tracked(ls) && AllCoherent(ls)
    ensures AllCoherent(IntakeAll(ls, fs, now).links)
    decreases |fs|
  {
    if fs != [] {
      IntakeKeepsCoherent(ls, fs[..|fs| - 1], now);
    }
  }

  /** A whole poll keeps every connected drone active. */
  lemma PollKeepsCoherent(ls: Links, shared: Option<Json>, now: real)
    requires Tracked(ls) && AllCoherent(ls)
    ensures AllCoherent(Poll(ls, shared, now).0)
  {
    if shared.Some? && shared.value.JObj? {
      IntakeKeepsCoherent(ls, shared.value.fields, now);
    }
  }

  /** For an active drone without data this poll the connection drops exactly when the last
      update is more than 3 s old, or there has been none since the last command; a gap of
      exactly 3 s keeps it. */
  lemma TimeoutRule(l: Link, now: real)
    requires l.active
    ensures !Check(l, false, now).connected <==>
      !l.connected || (l.lastUpdate > 0.0 && now - l.lastUpdate > 3.0) || l.lastUpdate == 0.0
    ensures Check(l, false, now).active && Check(l, false, now).lastUpdate == l.lastUpdate
    ensures l.connected && l.lastUpdate > 0.0 && now == l.lastUpdate + 3.0 ==> Check(l, false, now).connected
  {
  }

  /** A start keeps a previous connection flag, but the next poll without data clears it, since
      the command reset the last update time. */
  lemma StartThenSilentPoll(l: Link, now: real)
    ensures Command(l, true).active && Command(l, true).connected == l.connected
    ensures !Check(Command(l, true), false, now).connected
  {
  }

  /** The entries whose key names a drone: only keys reading as 1 or 2. */
  function DroneEntries(fs: Fields): (r: Fields)
    ensures forall p :: p in r ==> p in fs && NamesDrone(p)
    decreases |fs|
  {
    if fs == [] then []
    else
      var rest := DroneEntries(fs[..|fs| - 1]);
      if NamesDrone(fs[|fs| - 1]) then rest + [fs[|fs| - 1]] else rest
  }

  /** The entries that name a drone keep the region's dict order: they are the entries at the
      positions whose key names a drone, in increasing order, and every such entry is kept. */
  lemma {:induction false} DroneEntriesInOrder(fs: Fields)
    ensures Picks(DroneEntries(fs), fs, Positions(fs, NamesDrone))
    ensures forall i :: 0 <= i < |fs| && NamesDrone(fs[i]) ==> fs[i] in DroneEntries(fs)
    decreases |fs|
  {
    if fs != [] {
      var init, last := fs[..|fs| - 1], fs[|fs| - 1];
      DroneEntriesInOrder(init);
      assert fs == init + [last];
      PositionsSnoc(init, last, NamesDrone);
      PicksSnoc(last, DroneEntries(init), init, Positions(init, NamesDrone));
    }
    PicksPositions(DroneEntries(fs), fs, NamesDrone);
  }

  /** Entries under keys other than 1 and 2 change nothing: the poll is the same with them
      removed. */
  lemma {:induction false} IntakeSkipsOtherKeys(ls: Links, fs: Fields, now: real)
    requires Tracked(ls)
    ensures IntakeAll(ls, fs, now) == IntakeAll(ls, DroneEntries(fs), now)
    decreases |fs|
  {
    if fs != [] {
      var init, last := fs[..|fs| - 1], fs[|fs| - 1];
      IntakeSkipsOtherKeys(ls, init, now);
      var rest := DroneEntries(init);
      var prev := IntakeAll(ls, init, now);
      assert IntakeAll(ls, fs, now) == Step(prev, last, now);
      if DroneOf(last.0).Some? {
        var g := rest + [last];
        assert g[..|g| - 1] == rest;
        assert IntakeAll(ls, g, now) == Step(IntakeAll(ls, rest, now), last, now);
      } else {
        assert Step(prev, last, now) == prev;
      }
    }
  }

  /** After the loop, a drone that had an entry was stamped with the poll time, and is
      connected if it is active. */
  lemma {:induction false} IntakeStamps(ls: Links, fs: Fields, now: real, d: int)
    requires Tracked(ls) && d in IntakeAll(ls, fs, now).received
    ensures IntakeAll(ls, fs, now).links[d].lastUpdate == now
    ensures IntakeAll(ls, fs, now).links[d].active ==> IntakeAll(ls, fs, now).links[d].connected
    decreases |fs|
  {
    if fs != [] {
      var prev := IntakeAll(ls, fs[..|fs| - 1], now);
      assert IntakeAll(ls, fs, now) == Step(prev, fs[|fs| - 1], now);
      if d in prev.received {
        IntakeStamps(ls, fs[..|fs| - 1], now, d);
      }
    }
  }

  /** A poll that finds an entry for an active drone leaves it connected, stamped with the poll
      time. */
  lemma DataConnects(ls: Links, fs: Fields, now: real, d: int, i: nat)
    requires Tracked(ls) && d in Drones && ls[d].active
    requires i < |fs| && fs[i].0 == PyText.Digits(d)
    requires FirstRaise(fs) == |fs|
    ensures Poll(ls, Some(JObj(fs)), now).1
    ensures Poll(ls, Some(JObj(fs)), now).0[d] == Link(true, true, now)
  {
    KeyNamesDrone(d);
    assert fs[..|fs|] == fs;
    NamedByEntry(fs, i);
    PollOnObject(ls, fs, now);
  }

  /** Once the loop has raised, later entries change nothing. */
  lemma {:induction false} HaltedStays(ls: Links, fs: Fields, j: nat, now: real)
    requires Tracked(ls) && j <= |fs| && IntakeAll(ls, fs[..j], now).halted
    ensures IntakeAll(ls, fs, now) == IntakeAll(ls, fs[..j], now)
    decreases |fs| - j
  {
    if j < |fs| {
      assert fs[..j + 1][..j] == fs[..j];
      assert IntakeAll(ls, fs[..j + 1], now) == IntakeAll(ls, fs[..j], now);
      HaltedStays(ls, fs, j + 1, now);
    } else {
      assert fs[..j] == fs;
    }
  }

  // ----- Status selection -----

  /** The dashboard card's status text. */
  function DashboardStatus(active: bool, connected: bool): string {
    if active then (if connected then "AKT\U{0130}F" else "BA\U{011E}LANTI BEKLEN\U{0130}YOR")
    else "BA\U{011E}LANTI KES\U{0130}K"
  }

  /** The telemetry card's connection text. */
  function ConnectionText(active: bool, connected: bool): string {
    if active then (if connected then "Durum: BA\U{011E}LI" else "Durum: TELEMETR\U{0130} YOK")
    else "Durum: BA\U{011E}LANTI KES\U{0130}K"
  }

  /** Whether the data labels are cleared, in the form the source tests. */
  predicate ClearsLabels(active: bool, connected: bool) {
    !active || (active && !connected)
  }

  /** The status names the three states apart, the connection text agrees with it, and the
      labels are cleared exactly when the drone is not both active and connected. The initial
      "PASİF" text is never chosen. */
  lemma StatusSelection(active: bool, connected: bool)
    ensures DashboardStatus(active, connected) == "AKT\U{0130}F" <==> active && connected
    ensures DashboardStatus(active, connected) == "BA\U{011E}LANTI BEKLEN\U{0130}YOR" <==> active && !connected
    ensures DashboardStatus(active, connected) == "BA\U{011E}LANTI KES\U{0130}K" <==> !active
    ensures DashboardStatus(active, connected) != "PAS\U{0130}F"
    ensures ConnectionText(active, connected) == "Durum: BA\U{011E}LI" <==> DashboardStatus(active, connected) == "AKT\U{0130}F"
    ensures ClearsLabels(active, connected) <==> !(active && connected)
  {
    assert "AKT\U{0130}F"[0] != "BA\U{011E}LANTI KES\U{0130}K"[0];
    assert "AKT\U{0130}F"[0] != "BA\U{011E}LANTI BEKLEN\U{0130}YOR"[0];
    assert "BA\U{011E}LANTI BEKLEN\U{0130}YOR"[9] != "BA\U{011E}LANTI KES\U{0130}K"[9];
    assert "PAS\U{0130}F"[0] != "AKT\U{0130}F"[0] && "PAS\U{0130}F"[0] != "BA\U{011E}LANTI KES\U{0130}K"[0];
    assert |"Durum: BA\U{011E}LI"| != |"Durum: BA\U{011E}LANTI KES\U{0130}K"|;
    assert "Durum: BA\U{011E}LI"[7] != "Durum: TELEMETR\U{0130} YOK"[7];
  }

  // ----- GIF animation -----

  /** What one `_animate_gif` call does: stop (showing the placeholder), stall with no frames,
      or show a frame and schedule the next call after `delay` milliseconds. */
  datatype GifStep = Stopped | Stalled | Shown(frame: nat, delay: nat)

  /** One animation step at index `idx` over frames with the given durations (the loader
      appends a frame and its duration together, so there is one duration per frame); returns
      the step and the index after it. */
  function AnimateStep(active: bool, loaded: bool, idx: nat, durations: seq<nat>): (r: (GifStep, nat))
    ensures !active || !loaded ==> r.0 == Stopped
    ensures active && loaded && durations == [] ==> r.0 == Stalled
    ensures r.0.Shown? <==> active && loaded && durations != []
    ensures !active || !loaded || durations == [] ==> r.1 == idx
  {
    if !active || !loaded then (Stopped, idx)
    else if durations == [] then (Stalled, idx)
    else
      var n := |durations|;
      var next := (idx + 1) % n;
      (Shown(if idx < n then idx else 0, durations[next]), next)
  }

  /** A running animation shows a frame that exists, the frame at the index when it is in
      range and frame 0 otherwise, and leaves the index in range. */
  lemma AnimateStepInRange(idx: nat, durations: seq<nat>)
    requires durations != []
    ensures var (step, next) := AnimateStep(true, true, idx, durations);
      && step.Shown? && step.frame < |durations| && next < |durations|
      && (idx < |durations| ==> step.frame == idx)
      && (idx >= |durations| ==> step.frame == 0)
      && next == (idx + 1) % |durations|
  {
  }

  lemma ModBelow(k: nat, n: nat)
    requires 0 < k <= n
    ensures k < n ==> k % n == k
    ensures k == n ==> k % n == 0
  {
  }

  /** The index after `k` steps of a running animation. */
  function IndexAfter(k: nat, idx: nat, durations: seq<nat>): nat {
    if k == 0 then idx else AnimateStep(true, true, IndexAfter(k - 1, idx, durations), durations).1
  }

  /** Started at frame 0, a running animation of `n` frames shows them in order: after `k < n`
      steps the index is `k`, and after `n` steps it is back at 0. */
  lemma {:induction false} GifFirstRound(k: nat, durations: seq<nat>)
    requires durations != [] && k <= |durations|
    ensures k < |durations| ==> IndexAfter(k, 0, durations) == k
    ensures k == |durations| ==> IndexAfter(k, 0, durations) == 0
  {
    var n := |durations|;
    if k > 0 {
      GifFirstRound(k - 1, durations);
      assert IndexAfter(k, 0, durations) == AnimateStep(true, true, k - 1, durations).1;
      AnimateStepInRange(k - 1, durations);
      ModBelow(k, n);
    }
  }

  /** The animation repeats with period `n`. */
  lemma {:induction false} GifPeriodic(k: nat, durations: seq<nat>)
    requires durations != []
    ensures IndexAfter(k + |durations|, 0, durations) == IndexAfter(k, 0, durations)
  {
    if k == 0 {
      GifFirstRound(|durations|, durations);
    } else {
      GifPeriodic(k - 1, durations);
    }
  }

  // ----- The dashboard object -----

  /** The loop of `update_telemetry` over the region's entries, in dict order: each entry
      under the key 1 or 2 stamps that drone; the first truthy one that is not an object ends
      the loop. */
  method ReadEntries(ls0: Links, fs: Fields, now: real) returns (ls: Links, received: set<int>, halted: bool)
    requires Tracked(ls0)
    ensures Intake(ls, received, halted) == IntakeAll(ls0, fs, now)
  {
    ls, received, halted := ls0, {}, false;
    var i := 0;
    while i < |fs|
      invariant 0 <= i <= |fs| && Tracked(ls) && received <= Drones
      invariant IntakeAll(ls0, fs[..i], now) == Intake(ls, received, false)
    {
      assert fs[..i + 1][..i] == fs[..i];
      var (key, telemetry) := fs[i];
      var d := DroneOf(key);
      if d.Some? {
        if Truthy(telemetry) && !telemetry.JObj? {
          HaltedStays(ls0, fs, i + 1, now);
          return ls, received, true;
        }
        ls := ls[d.value := Receive(ls[d.value], now)];
        received := received + {d.value};
      }
      i := i + 1;
    }
    assert fs[..|fs|] == fs;
  }

  /** The connection check of `update_telemetry`, drone 1 then drone 2. */
  method CheckDrones(ls0: Links, received: set<int>, now: real) returns (ls: Links)
    requires Tracked(ls0)
    ensures ls == CheckAll(ls0, received, now)
  {
    ls := ls0;
    for d := 1 to 3
      invariant Tracked(ls)
      invariant forall e :: e in Drones ==> ls[e] == (if e < d then Check(ls0[e], e in received, now) else ls0[e])
    {
      ls := ls[d := Check(ls[d], d in received, now)];
    }
    SameLinks(ls, CheckAll(ls0, received, now));
  }

  /** The dashboard's per-drone state. The three per-drone dicts of the connection state are
      held together as one map from drone id to `Link`. */
  class ControlCenter {
    var links: Links
    var frameIndex: map<int, nat>
    var gifLoaded: map<int, bool>
    var durations: map<int, seq<nat>>
    /** Whether `update_telemetry` is still scheduled to run again. */
    var polling: bool

    ghost predicate Valid() reads this {
      && Tracked(links) && AllCoherent(links)
      && frameIndex.Keys == Drones && gifLoaded.Keys == Drones && durations.Keys == Drones
    }

    /** `__init__`: nothing commanded, nothing connected, no update yet, no GIF loaded; it ends
        with a first `update_telemetry` poll on `shared`, what the region holds at time `now`. */
    constructor (shared: Option<Json>, now: real)
      ensures Valid()
      ensures (links, polling) == Poll(map[1 := Link(false, false, 0.0), 2 := Link(false, false, 0.0)], shared, now)
      ensures frameIndex == map[1 := 0, 2 := 0] && gifLoaded == map[1 := false, 2 := false]
      ensures durations == map[1 := [], 2 := []]
    {
      links := map[1 := Link(false, false, 0.0), 2 := Link(false, false, 0.0)];
      frameIndex := map[1 := 0, 2 := 0];
      gifLoaded := map[1 := false, 2 := false];
      durations := map[1 := [], 2 := []];
      polling := true;
      new;
      UpdateTelemetry(shared, now);
    }

    /** `_animate_gif` for drone `d`. */
    method AnimateGif(d: int) returns (step: GifStep)
      requires Valid() && d in Drones
      modifies this
      ensures Valid()
      ensures (step, frameIndex[d]) ==
        AnimateStep(old(links[d].active), old(gifLoaded[d]), old(frameIndex[d]), old(durations[d]))
      ensures frameIndex == old(frameIndex)[d := frameIndex[d]]
      ensures links == old(links) && gifLoaded == old(gifLoaded) && durations == old(durations)
      ensures polling == old(polling)
    {
      if !links[d].active || !gifLoaded[d] {
        return Stopped;
      }
      var frames := durations[d];
      if frames == [] {
        return Stalled;
      }
      var idx := frameIndex[d];
      var shown := if idx < |frames| then idx else 0;
      frameIndex := frameIndex[d := (idx + 1) % |frames|];
      step := Shown(shown, frames[frameIndex[d]]);
    }

    /** `_load_gif_frames` for drone `d`; `load` is what reading the GIF file gives: the
        duration of each frame, or None where the file cannot be opened. */
    method LoadGif(d: int, load: Option<seq<nat>>)
      requires Valid() && d in Drones
      modifies this
      ensures Valid()
      ensures gifLoaded == old(gifLoaded)[d := load.Some?]
      ensures durations == if load.Some? then old(durations)[d := load.value] else old(durations)
      ensures links == old(links) && frameIndex == old(frameIndex) && polling == old(polling)
    {
      match load
      case Some(ds) =>
        durations := durations[d := ds];
        gifLoaded := gifLoaded[d := true];
      case None =>
        gifLoaded := gifLoaded[d := false];
    }

    /** The GIF part of a start for drone `d`, which is already active: a GIF that is not
        ready is loaded first, with `load` the outcome of that load; a loaded GIF restarts at
        frame 0 and is shown. */
    method StartGif(d: int, load: Option<seq<nat>>)
      requires Valid() && d in Drones && links[d].active
      modifies this
      ensures Valid()
      ensures var reload := old(durations[d]) == [] || !old(gifLoaded[d]);
        && gifLoaded == (if reload then old(gifLoaded)[d := load.Some?] else old(gifLoaded))
        && durations == (if reload && load.Some? then old(durations)[d := load.value] else old(durations))
      ensures frameIndex == if gifLoaded[d]
        then old(frameIndex)[d := AnimateStep(true, true, 0, durations[d]).1]
        else old(frameIndex)
      ensures links == old(links) && polling == old(polling)
    {
      if durations[d] == [] || !gifLoaded[d] {
        LoadGif(d, load);
      }
      if gifLoaded[d] {
        RestartGif(d);
      }
    }

    /** A loaded GIF of an active drone restarts at frame 0 and shows it. */
    method RestartGif(d: int)
      requires Valid() && d in Drones && links[d].active && gifLoaded[d]
      modifies this
      ensures Valid()
      ensures frameIndex == old(frameIndex)[d := AnimateStep(true, true, 0, durations[d]).1]
      ensures links == old(links) && gifLoaded == old(gifLoaded) && durations == old(durations)
      ensures polling == old(polling)
    {
      frameIndex := frameIndex[d := 0];
      var _ := AnimateGif(d);
    }

    /** `handle_drone_process_command(d, start)`. A start whose GIF is not ready loads it first,
        with `load` the outcome of that load. A start with a loaded GIF restarts the animation
        at frame 0 and shows it. */
    method HandleCommand(d: int, start: bool, load: Option<seq<nat>>)
      requires Valid() && d in Drones
      modifies this
      ensures Valid()
      ensures links == old(links)[d := Command(old(links[d]), start)]
      ensures var reload := start && (old(durations[d]) == [] || !old(gifLoaded[d]));
        && gifLoaded == (if reload then old(gifLoaded)[d := load.Some?] else old(gifLoaded))
        && durations == (if reload && load.Some? then old(durations)[d := load.value] else old(durations))
      ensures frameIndex == if start && gifLoaded[d]
        then old(frameIndex)[d := AnimateStep(true, true, 0, durations[d]).1]
        else old(frameIndex)
      ensures polling == old(polling)
    {
      StepsKeepCoherent(links[d], start, false, 0.0);
      links := links[d := Command(links[d], start)];
      if start {
        StartGif(d, load);
      }
    }

    /** `update_telemetry` on the value read from the region at time `now`. */
    method UpdateTelemetry(shared: Option<Json>, now: real)
      requires Valid() && polling
      modifies this
      ensures Valid()
      ensures (links, polling) == Poll(old(links), shared, now)
      ensures frameIndex == old(frameIndex) && gifLoaded == old(gifLoaded) && durations == old(durations)
    {
      PollKeepsCoherent(links, shared, now);
      if shared.Some? && Truthy(shared.value) {
        if !shared.value.JObj? {
          assert Poll(links, shared, now) == (links, false);
          polling := false;
          return;
        }
        var ls, received, halted := ReadEntries(links, shared.value.fields, now);
        if halted {
          assert Poll(links, shared, now) == (ls, false);
          links, polling := ls, false;
          return;
        }
        assert Poll(links, shared, now) == (CheckAll(ls, received, now), true);
        links := CheckDrones(ls, received, now);
      } else {
        assert Poll(links, shared, now) == (CheckAll(links, {}, now), true);
        links := CheckDrones(links, {}, now);
      }
    }
  }
}

=== FILE: drone2.dfy ===
/** The Drone2_bayland publisher: each round it takes one reading from every telemetry stream,
    builds a fourteen-key record, and does a read-modify-write of the shared region with that
    record as its own entry, written when it is at most as long as the region. */
module Drone2 {
  import opened Wrappers
  import opened Json
  import opened Geo
  import PyText
  import Snapshot

  /** One reading of each stream, as the round awaits them. */
  datatype Readings = Readings(
    latitude: real, longitude: real, absoluteAltitude: real, relativeAltitude: real,
    north: real, east: real,
    roll: real, pitch: real, yaw: real,
    flightMode: string,
    remaining: real, voltage: real,
    satellites: Option<int>, fixType: Option<int>)   // None where the reading has no such attribute

  /** The keys of the record, in the order they are written. */
  const RecordKeys: seq<string> := [
    "latitude", "longitude", "absolute_altitude", "relative_altitude", "speed",
    "roll", "pitch", "yaw", "flight_mode", "battery_percent", "battery_voltage",
    "satellites_visible", "fix_type", "uptime"]

  /** `getattr(reading, name, "N/A")`. */
  function OrNotAvailable(v: Option<int>): Json {
    if v.Some? then JNum(v.value as real) else JStr("N/A")
  }

  /** The values of the record, key by key. */
  function RecordValues(geo: Geometry, r: Readings, uptime: string): (vs: seq<Json>)
    ensures |vs| == |RecordKeys| && forall i :: 0 <= i < |vs| ==> vs[i].JNum? || vs[i].JStr?
    ensures vs[13] == JStr(uptime)
  {
    [ JNum(r.latitude), JNum(r.longitude), JNum(r.absoluteAltitude), JNum(r.relativeAltitude),
      JNum(geo.hypot(r.north, r.east)),
      JNum(r.roll), JNum(r.pitch), JNum(r.yaw),
      JStr(r.flightMode),
      JNum(r.remaining * 100.0), JNum(r.voltage),
      OrNotAvailable(r.satellites), OrNotAvailable(r.fixType),
      JStr(uptime)]
  }

  /** The record a round publishes: always the same fourteen distinct keys, the uptime text
      under "uptime". */
  function Record(geo: Geometry, r: Readings, uptime: string): (rec: Json)
    ensures rec.JObj? && Keys(rec.fields) == RecordKeys && UniqueKeys(rec.fields)
    ensures |rec.fields| == 14 && WellFormed(rec)
    ensures Get(rec.fields, "uptime") == Some(JStr(uptime))
  {
    var vs := RecordValues(geo, r, uptime);
    var fs := Zip(RecordKeys, vs);
    assert forall i :: 0 <= i < |fs| ==> WellFormed(fs[i].1);
    RecordKeysDistinct();
    assert Keys(fs) == RecordKeys;
    assert UniqueKeys(fs);
    GetAt(fs, 13);
    JObj(fs)
  }

  lemma RecordKeysDistinct()
    ensures forall i, j :: 0 <= i < j < |RecordKeys| ==> RecordKeys[i] != RecordKeys[j]
  {
  }

  /** `timedelta.seconds` of a non-negative duration: its whole seconds within the day. */
  function Seconds(elapsed: real): (s: nat)
    requires elapsed >= 0.0
    ensures s < 86400
  {
    elapsed.Floor % 86400
  }

  /** The uptime text as the source computes it: the minutes come from one reading of the clock
      and the seconds from a second, later reading. */
  function UptimeAsWritten(first: real, second: real): string
    requires 0.0 <= first <= second
  {
    PyText.Pad2(Seconds(first) / 60) + ":" + PyText.Pad2(Seconds(second) % 60)
  }

  /** The uptime text from a single reading of the clock: minutes, a colon, and two digits of
      seconds. */
  function Uptime(elapsed: real): string
    requires elapsed >= 0.0
  {
    PyText.Pad2(Seconds(elapsed) / 60) + ":" + PyText.Pad2(Seconds(elapsed) % 60)
  }

  /** The digits before the colon, read as minutes, and the two digits after it, read as
      seconds below 60. */
  predicate Denotes(u: string, total: nat) {
    && |u| >= 5 && u[|u| - 3] == ':'
    && PyText.AllDigits(u[..|u| - 3]) && PyText.AllDigits(u[|u| - 2..])
    && PyText.DigitsValue(u[|u| - 2..]) < 60
    && PyText.DigitsValue(u[..|u| - 3]) * 60 + PyText.DigitsValue(u[|u| - 2..]) == total
  }

  /** The minutes-and-seconds text shows exactly the seconds elapsed within the day. */
  lemma UptimeDenotes(elapsed: real)
    requires elapsed >= 0.0
    ensures Denotes(Uptime(elapsed), Seconds(elapsed))
  {
    var s := Seconds(elapsed);
    var m, sec := PyText.Pad2(s / 60), PyText.Pad2(s % 60);
    var u := Uptime(elapsed);
    assert |sec| == 2;
    assert u[..|u| - 3] == m && u[|u| - 2..] == sec;
    PyText.Pad2Denotes(s / 60);
    PyText.Pad2Denotes(s % 60);
  }

  /** The text computed from two clock readings shows the first reading's minutes and the
      second reading's seconds, so it shows the later reading when both fall in the same
      minute. */
  lemma UptimeAsWrittenDenotes(first: real, second: real)
    requires 0.0 <= first <= second
    ensures Denotes(UptimeAsWritten(first, second), Seconds(first) / 60 * 60 + Seconds(second) % 60)
    ensures Seconds(first) / 60 == Seconds(second) / 60 ==>
      Denotes(UptimeAsWritten(first, second), Seconds(second))
  {
    var m, sec := PyText.Pad2(Seconds(first) / 60), PyText.Pad2(Seconds(second) % 60);
    var u := UptimeAsWritten(first, second);
    assert |sec| == 2;
    assert u[..|u| - 3] == m && u[|u| - 2..] == sec;
    PyText.Pad2Denotes(Seconds(first) / 60);
    PyText.Pad2Denotes(Seconds(second) % 60);
  }

  /** Two readings 59.9 s and 60.0 s after start straddle a minute: the source shows "00:00",
      behind both readings, where one reading shows "00:59" or "01:00". */
  lemma UptimeAsWrittenStraddlesMinute()
    ensures UptimeAsWritten(59.9, 60.0) == "00:00"
    ensures Uptime(59.9) == "00:59" && Uptime(60.0) == "01:00"
    ensures Seconds(59.9) == 59 && Seconds(60.0) == 60
  {
    assert Seconds(59.9) == 59;
    assert Seconds(60.0) == 60;
    assert PyText.Digits(0) == "0" && PyText.Digits(1) == "1";
    assert PyText.Digits(59) == "59" by {
      assert PyText.Digits(5) == "5" && PyText.Digits(9) == "9";
    }
  }

  /** One round: build the record, whose uptime takes its minutes from the clock reading
      `first` and its seconds from the later reading `second`, then publish it. A region holding
      JSON that is not an object makes the assignment raise TypeError, which the round catches:
      the region is left unchanged and the next round runs. */
  method SendTelemetry(region: Snapshot.SharedRegion, c: Codec, geo: Geometry, id: string,
                       r: Readings, first: real, second: real) returns (status: Snapshot.PublishStatus)
    requires region.Valid() && 0.0 <= first <= second
    modifies region.buf
    ensures (status, region.buf[..]) ==
      Snapshot.Publish(c, Snapshot.UpToCapacity, old(region.buf[..]), id, Record(geo, r, UptimeAsWritten(first, second)))
  {
    var record := Record(geo, r, UptimeAsWritten(first, second));
    status := region.PublishEntry(c, Snapshot.UpToCapacity, id, record);
  }
}

=== FILE: flocking2.dfy ===
/** One round of the flocking2 controller, which steers drone "2" relative to drone "1": read
    the region, and when both entries are present and the two drones are within 30 m of each
    other, send drone "2" to a point that combines separation (weight 1.2) with cohesion
    (weight 0.4). Any exception ends the round without a command. */
module Flocking2 {
  import opened Wrappers
  import opened Seqs
  import opened Json
  import opened Geo
  import Utf8
  import Snapshot

  const MyId: string := "2"
  const OtherId: string := "1"
  const SeeRadius: real := 30.0
  const CohesionWeight: real := 0.4
  const SeparationWeight: real := 1.2
  /** Metres per degree of longitude at the equator and per degree of latitude. */
  const MetresPerDegreeLon: real := 111320.0
  const MetresPerDegreeLat: real := 110540.0

  datatype Wait =
    | Raised       // an exception ended the round; the next round starts after 1 s
    | Absent       // one of the two entries is missing; the next round starts after 0.2 s
    | OutOfSight   // the drones are more than 30 m apart; the next round starts after 1 s

  /** `goto_location(latitude, longitude, absolute_altitude, yaw)`, or no command. */
  datatype Outcome = GotoLocation(latitude: real, longitude: real, altitude: real, yaw: real) | Idle(reason: Wait)

  /** The pause before the next round, in seconds. */
  function PauseAfter(o: Outcome): real {
    if o == Idle(Absent) then 0.2 else 1.0
  }

  /** The region as this controller reads it: the bytes before the first zero byte, decoded
      strictly and parsed. An empty prefix is handed to the parser too, which rejects it. */
  function Read(c: Codec, buf: seq<Snapshot.byte>): Option<Json> {
    match Utf8.DecodeStrict(BeforeFirst(buf, 0))
    case None => None
    case Some(text) => c.parse(text)
  }

  /** `meter_distance`: the planar distance between the two positions under an
      equirectangular projection at the first latitude, with its east and north components. */
  function MeterDistance(geo: Geometry, lat1: real, lon1: real, lat2: real, lon2: real): (r: (real, real, real))
    ensures r.0 == geo.hypot(r.1, r.2)
    ensures r.1 == (lon2 - lon1) * MetresPerDegreeLon * geo.cos(geo.radians(lat1))
    ensures r.2 == (lat2 - lat1) * MetresPerDegreeLat
  {
    var dx := (lon2 - lon1) * MetresPerDegreeLon * geo.cos(geo.radians(lat1));
    var dy := (lat2 - lat1) * MetresPerDegreeLat;
    (geo.hypot(dx, dy), dx, dy)
  }

  /** The command for drone "2" at (mlat, mlon) and drone "1" at (olat, olon). The altitude is
      read only once the drones are within sight. */
  function Steer(geo: Geometry, mlat: real, mlon: real, olat: real, olon: real, altitude: Option<Json>): (r: Outcome)
    ensures r.GotoLocation? || r == Idle(OutOfSight) || r == Idle(Raised)
  {
    var (dist, dx, dy) := MeterDistance(geo, mlat, mlon, olat, olon);
    if dist > SeeRadius then Idle(OutOfSight)
    else
      var sepX, sepY := -dx, -dy;
      var cohX := (olon - mlon) * MetresPerDegreeLon;
      var cohY := (olat - mlat) * MetresPerDegreeLat;
      var totalDx := SeparationWeight * sepX + CohesionWeight * cohX;
      var totalDy := SeparationWeight * sepY + CohesionWeight * cohY;
      var targetLon := mlon + totalDx / MetresPerDegreeLon;
      var targetLat := mlat + totalDy / MetresPerDegreeLat;
      if altitude.None? || AsNumber(altitude.value).None? then Idle(Raised)
      else GotoLocation(targetLat, targetLon, AsNumber(altitude.value).value, 0.0)
  }

  /** The command for the two entries: both must be objects whose coordinates are numbers. */
  function Follow(geo: Geometry, me: Json, other: Json): (r: Outcome)
    ensures r.GotoLocation? || r == Idle(OutOfSight) || r == Idle(Raised)
  {
    var mlat, mlon := Index(me, "latitude"), Index(me, "longitude");
    var olat, olon := Index(other, "latitude"), Index(other, "longitude");
    if mlat.None? || mlon.None? || olat.None? || olon.None? then Idle(Raised)
    else if AsNumber(mlat.value).None? || AsNumber(mlon.value).None? ||
            AsNumber(olat.value).None? || AsNumber(olon.value).None? then Idle(Raised)
    else Steer(geo, AsNumber(mlat.value).value, AsNumber(mlon.value).value,
               AsNumber(olat.value).value, AsNumber(olon.value).value, Index(me, "absolute_altitude"))
  }

  /** The decision on the parsed region: wait unless both "2" and "1" are present (tested in
      that order, each test raising TypeError on a value that supports no `in`), then follow. */
  function Tick(geo: Geometry, data: Json): (r: Outcome)
    ensures Contains(data, MyId).None? ==> r == Idle(Raised)
  {
    match Contains(data, MyId)
    case None => Idle(Raised)
    case Some(hasMe) =>
      if !hasMe then Idle(Absent)
      else if Contains(data, OtherId) != Some(true) then Idle(Absent)
      else if Index(data, MyId).None? || Index(data, OtherId).None? then Idle(Raised)
      else Follow(geo, Index(data, MyId).value, Index(data, OtherId).value)
  }

  /** One round on the region's bytes. */
  function Round(geo: Geometry, c: Codec, buf: seq<Snapshot.byte>): Outcome {
    match Read(c, buf)
    case None => Idle(Raised)
    case Some(data) => Tick(geo, data)
  }

  /** Where the region holds bytes before its first zero, this controller reads exactly what
      the publishers' reader reads; where it holds none, that reader sees `{}` and this one
      fails. */
  lemma ReadAgreesWithPrefix(c: Codec, buf: seq<Snapshot.byte>)
    requires Lawful(c)
    ensures BeforeFirst(buf, 0) != [] ==> Read(c, buf) == Snapshot.ReadPrefix(c, buf)
    ensures BeforeFirst(buf, 0) == [] ==> Read(c, buf) == None && Snapshot.ReadPrefix(c, buf) == Some(JObj([]))
  {
    if BeforeFirst(buf, 0) == [] {
      assert Utf8.DecodeStrict([]) == Some([]);
    }
  }

  /** Whatever a publisher wrote, this controller reads back. */
  lemma ReadsPublished(c: Codec, v: Json)
    requires Lawful(c) && RoundTrips(c, v)
    requires |Snapshot.Encoded(c, v)| <= Snapshot.Capacity
    ensures Read(c, Snapshot.Frame(Snapshot.Encoded(c, v))) == Some(v)
  {
    var f := Snapshot.Frame(Snapshot.Encoded(c, v));
    Snapshot.ReadBack(c, v);
    ReadAgreesWithPrefix(c, f);
  }

  /** A region whose first byte is zero ends the round with an exception. */
  lemma EmptyRegionRaises(geo: Geometry, c: Codec, buf: seq<Snapshot.byte>)
    requires Lawful(c) && |buf| > 0 && buf[0] == 0
    ensures Round(geo, c, buf) == Idle(Raised)
  {
    assert BeforeFirst(buf, 0) == [];
    ReadAgreesWithPrefix(c, buf);
  }

  /** On an object, the round waits 0.2 s exactly when the entry "2" or the entry "1" is
      missing. */
  lemma WaitsForBoth(geo: Geometry, fs: Fields)
    ensures Tick(geo, JObj(fs)) == Idle(Absent) <==> MyId !in Keys(fs) || OtherId !in Keys(fs)
    ensures Tick(geo, JObj(fs)) == Idle(Absent) <==> PauseAfter(Tick(geo, JObj(fs))) == 0.2
  {
    var data := JObj(fs);
    assert Contains(data, MyId) == Some(MyId in Keys(fs));
    assert Contains(data, OtherId) == Some(OtherId in Keys(fs));
    if MyId in Keys(fs) && OtherId in Keys(fs) {
      assert Tick(geo, data) == Follow(geo, Index(data, MyId).value, Index(data, OtherId).value);
    }
  }

  /** The target keeps the drones' relative geometry: it lies 0.8 of the latitude difference
      on the far side of drone "2" from drone "1", and shifts its longitude by the difference
      times 0.4 − 1.2·cos(latitude); it is sent only within 30 m, at yaw 0. */
  lemma TargetFormula(geo: Geometry, mlat: real, mlon: real, olat: real, olon: real, altitude: Option<Json>)
    requires Steer(geo, mlat, mlon, olat, olon, altitude).GotoLocation?
    ensures var r := Steer(geo, mlat, mlon, olat, olon, altitude);
      && r.latitude == mlat - 0.8 * (olat - mlat)
      && r.longitude == mlon + (olon - mlon) * (0.4 - 1.2 * geo.cos(geo.radians(mlat)))
      && MeterDistance(geo, mlat, mlon, olat, olon).0 <= 30.0
      && r.yaw == 0.0
      && altitude.Some? && r.altitude == AsNumber(altitude.value).value
  {
    var (dist, dx, dy) := MeterDistance(geo, mlat, mlon, olat, olon);
    var k := geo.cos(geo.radians(mlat));
    var dlon := olon - mlon;
    var totalDx := SeparationWeight * -dx + CohesionWeight * (dlon * MetresPerDegreeLon);
    assert dx == dlon * MetresPerDegreeLon * k;
    assert totalDx == dlon * MetresPerDegreeLon * (0.4 - 1.2 * k);
    assert totalDx / MetresPerDegreeLon == dlon * (0.4 - 1.2 * k);
  }

  /** The separation term outweighs cohesion along the latitude: the target latitude is never
      on the same side of drone "2" as drone "1". */
  lemma TargetLatitudeMovesAway(geo: Geometry, mlat: real, mlon: real, olat: real, olon: real, altitude: Option<Json>)
    requires Steer(geo, mlat, mlon, olat, olon, altitude).GotoLocation?
    ensures var t := Steer(geo, mlat, mlon, olat, olon, altitude).latitude;
      (olat > mlat ==> t < mlat) && (olat < mlat ==> t > mlat) && (olat == mlat ==> t == mlat)
  {
    TargetFormula(geo, mlat, mlon, olat, olon, altitude);
  }

  /** With numeric positions and altitude, the round commands exactly when the distance is at
      most 30 m: a distance of exactly 30 m still commands. */
  lemma SeeRadiusBoundary(geo: Geometry, mlat: real, mlon: real, olat: real, olon: real, alt: real)
    ensures Steer(geo, mlat, mlon, olat, olon, Some(JNum(alt))).GotoLocation?
      <==> MeterDistance(geo, mlat, mlon, olat, olon).0 <= 30.0
    ensures Steer(geo, mlat, mlon, olat, olon, Some(JNum(alt))) == Idle(OutOfSight)
      <==> MeterDistance(geo, mlat, mlon, olat, olon).0 > 30.0
  {
  }

  /** A command is always computed from the entries "2" and "1" of an object whose positions
      are numbers. */
  lemma CommandsFollowDroneOne(geo: Geometry, data: Json)
    requires Tick(geo, data).GotoLocation?
    ensures data.JObj? && MyId in Keys(data.fields) && OtherId in Keys(data.fields)
    ensures var me, other := Index(data, MyId).value, Index(data, OtherId).value;
      && Index(me, "latitude").Some? && Index(me, "longitude").Some?
      && Index(other, "latitude").Some? && Index(other, "longitude").Some?
      && AsNumber(Index(me, "latitude").value).Some? && AsNumber(Index(me, "longitude").value).Some?
      && AsNumber(Index(other, "latitude").value).Some? && AsNumber(Index(other, "longitude").value).Some?
      && Tick(geo, data) == Steer(geo,
          AsNumber(Index(me, "latitude").value).value, AsNumber(Index(me, "longitude").value).value,
          AsNumber(Index(other, "latitude").value).value, AsNumber(Index(other, "longitude").value).value,
          Index(me, "absolute_altitude"))
  {
    assert Tick(geo, data) == Follow(geo, Index(data, MyId).value, Index(data, OtherId).value);
    FollowsNumbers(geo, Index(data, MyId).value, Index(data, OtherId).value);
  }

  /** A command means all four coordinates were present and were numbers. */
  lemma FollowsNumbers(geo: Geometry, me: Json, other: Json)
    requires Follow(geo, me, other).GotoLocation?
    ensures && Index(me, "latitude").Some? && Index(me, "longitude").Some?
      && Index(other, "latitude").Some? && Index(other, "longitude").Some?
      && AsNumber(Index(me, "latitude").value).Some? && AsNumber(Index(me, "longitude").value).Some?
      && AsNumber(Index(other, "latitude").value).Some? && AsNumber(Index(other, "longitude").value).Some?
      && Follow(geo, me, other) == Steer(geo,
          AsNumber(Index(me, "latitude").value).value, AsNumber(Index(me, "longitude").value).value,
          AsNumber(Index(other, "latitude").value).value, AsNumber(Index(other, "longitude").value).value,
          Index(me, "absolute_altitude"))
  {
  }
}

=== FILE: geo.dfy ===
/** The floating-point functions of Python's `math` module that the controllers call. They are
    left uninterpreted: a `Geometry` is any choice of them, and the one fact some proofs need
    is stated as a predicate on it. All arithmetic around them is exact real arithmetic. */
module Geo {

  datatype Geometry = Geometry(
    sin: real -> real,
    cos: real -> real,
    atan2: (real, real) -> real,
    sqrt: real -> real,
    radians: real -> real,
    degrees: real -> real,
    hypot: (real, real) -> real)

  /** sin² + cos² = 1 at the angle `x`. */
  ghost predicate OnUnitCircle(g: Geometry, x: real) {
    g.sin(x) * g.sin(x) + g.cos(x) * g.cos(x) == 1.0
  }

  /** sin² + cos² = 1 at every angle. */
  ghost predicate Pythagorean(g: Geometry) {
    forall x :: OnUnitCircle(g, x)
  }
}

=== FILE: json.dfy ===
/** JSON values as Python's `json` module hands them over, with the few Python operations the
    core applies to them. A Python dict keeps its keys in insertion order, so an object is an
    association list; `json.dumps` writes the keys in that order and `json.loads` rebuilds it.
    The text codec itself is abstract: a `Codec` is any pair of functions obeying `Lawful`, and a
    reader gets a value back where the codec `RoundTrips` it. */
module Json {
  import opened Wrappers
  import PyText

  datatype Json =
    | JNull
    | JBool(b: bool)
    | JNum(n: real)
    | JStr(s: string)
    | JArr(items: seq<Json>)
    | JObj(fields: seq<(string, Json)>)

  type Fields = seq<(string, Json)>

  function Keys(fs: Fields): (ks: seq<string>)
    ensures |ks| == |fs| && forall i :: 0 <= i < |fs| ==> ks[i] == fs[i].0
  {
    if fs == [] then [] else [fs[0].0] + Keys(fs[1..])
  }

  /** No key occurs twice, as in every Python dict. */
  predicate UniqueKeys(fs: Fields) {
    forall i, j :: 0 <= i < j < |fs| ==> fs[i].0 != fs[j].0
  }

  /** `d.get(k)` on a dict, None when the key is absent. */
  function Get(fs: Fields, k: string): (r: Option<Json>)
    ensures r.Some? <==> k in Keys(fs)
  {
    if fs == [] then None
    else if fs[0].0 == k then Some(fs[0].1)
    else Get(fs[1..], k)
  }

  /** In a dict, the key at position `i` looks up the value at position `i`. */
  lemma {:induction false} GetAt(fs: Fields, i: nat)
    requires UniqueKeys(fs) && i < |fs|
    ensures Get(fs, fs[i].0) == Some(fs[i].1)
  {
    if i > 0 {
      GetAt(fs[1..], i - 1);
    }
  }

  /** The dict with keys `ks` and values `vs`, pair by pair. */
  function Zip(ks: seq<string>, vs: seq<Json>): (fs: Fields)
    requires |ks| == |vs|
    ensures |fs| == |ks| && forall i :: 0 <= i < |ks| ==> fs[i] == (ks[i], vs[i])
  {
    if ks == [] then [] else [(ks[0], vs[0])] + Zip(ks[1..], vs[1..])
  }

  /** `d[k] = v` on a dict: an existing key keeps its position and takes the new value, a new
      key is appended. */
  function Put(fs: Fields, k: string, v: Json): (r: Fields)
    ensures Get(r, k) == Some(v)
    ensures forall k' :: k' != k ==> Get(r, k') == Get(fs, k')
  {
    if fs == [] then [(k, v)]
    else if fs[0].0 == k then [(k, v)] + fs[1..]
    else [fs[0]] + Put(fs[1..], k, v)
  }

  /** `d[k] = v` keeps the order of the existing keys and appends a new key at the end, so the
      keys stay distinct. */
  lemma {:induction false} PutKeys(fs: Fields, k: string, v: Json)
    ensures Keys(Put(fs, k, v)) == if k in Keys(fs) then Keys(fs) else Keys(fs) + [k]
  {
    if fs == [] {
      KeysCons((k, v), []);
    } else {
      var ks := Keys(fs[1..]);
      KeysCons(fs[0], fs[1..]);
      assert fs == [fs[0]] + fs[1..];
      if fs[0].0 == k {
        KeysCons((k, v), fs[1..]);
      } else {
        var rest := Put(fs[1..], k, v);
        PutKeys(fs[1..], k, v);
        KeysCons(fs[0], rest);
        assert Put(fs, k, v) == [fs[0]] + rest;
        KeysAfterOther(fs[0].0, Keys(fs[1..]), Keys(rest), k);
      }
    }
  }

  /** A key in front that differs from `k` leaves the effect of adding `k` unchanged. */
  lemma KeysAfterOther(x: string, ks: seq<string>, ks': seq<string>, k: string)
    requires x != k && ks' == if k in ks then ks else ks + [k]
    ensures [x] + ks' == if k in [x] + ks then [x] + ks else [x] + ks + [k]
  {
    assert k in [x] + ks <==> k in ks;
    if k !in ks {
      assert [x] + (ks + [k]) == [x] + ks + [k];
    }
  }

  lemma KeysCons(p: (string, Json), fs: Fields)
    ensures Keys([p] + fs) == [p.0] + Keys(fs)
  {
    assert ([p] + fs)[1..] == fs;
  }

  /** `d[k] = v` keeps the keys distinct. */
  lemma PutUnique(fs: Fields, k: string, v: Json)
    requires UniqueKeys(fs)
    ensures UniqueKeys(Put(fs, k, v))
  {
    var r := Put(fs, k, v);
    PutKeys(fs, k, v);
    var ks := Keys(r);
    forall i, j | 0 <= i < j < |r| ensures r[i].0 != r[j].0 {
      assert ks[i] == r[i].0 && ks[j] == r[j].0;
      if j < |fs| {
        assert ks[i] == Keys(fs)[i] && ks[j] == Keys(fs)[j];
      } else {
        assert ks[j] == k && ks[i] == Keys(fs)[i];
      }
    }
  }

  /** Every object inside the value has unique keys: what `json.loads` can return. */
  predicate WellFormed(v: Json) {
    match v
    case JArr(items) => forall i :: 0 <= i < |items| ==> WellFormed(items[i])
    case JObj(fs) => UniqueKeys(fs) && forall i :: 0 <= i < |fs| ==> WellFormed(fs[i].1)
    case _ => true
  }

  /** Python truthiness: None, False, zero and empty containers are false. */
  predicate Truthy(v: Json) {
    match v
    case JNull => false
    case JBool(b) => b
    case JNum(n) => n != 0.0
    case JStr(s) => s != ""
    case JArr(items) => items != []
    case JObj(fs) => fs != []
  }

  /** The value as a Python number (a bool is the integer 0 or 1); None where arithmetic on it
      raises TypeError. */
  function AsNumber(v: Json): Option<real> {
    match v
    case JNum(n) => Some(n)
    case JBool(b) => Some(if b then 1.0 else 0.0)
    case _ => None
  }

  predicate IsSubstring(key: string, s: string) {
    exists i :: 0 <= i <= |s| && key <= s[i..]
  }

  /** `key in container` for a string key: a dict tests its keys, a string its substrings, a
      list its elements; None where Python raises TypeError. */
  function Contains(container: Json, key: string): Option<bool> {
    match container
    case JObj(fs) => Some(key in Keys(fs))
    case JStr(s) => Some(IsSubstring(key, s))
    case JArr(items) => Some(JStr(key) in items)
    case _ => None
  }

  /** `container[key]` for a string key: None where Python raises KeyError (absent key) or
      TypeError (not a dict). */
  function Index(container: Json, key: string): (r: Option<Json>)
    ensures r.Some? <==> container.JObj? && key in Keys(container.fields)
  {
    match container
    case JObj(fs) => Get(fs, key)
    case _ => None
  }

  /** `d.get(key)` on a dict: the value, or None (JSON null) when absent. */
  function GetOrNone(fs: Fields, key: string): Json {
    Get(fs, key).GetOr(JNull)
  }

  /** `json.dumps` (to text) and `json.loads` (None where it raises JSONDecodeError). */
  datatype Codec = Codec(dump: Json -> string, parse: string -> Option<Json>)

  /** What the core assumes of the JSON library, for every value and every text: `loads` only
      returns values a Python program can hold; JSON text escapes every control character
      (section 7 of RFC 8259), so a dump holds no U+0000; a dump never starts with whitespace;
      `json.dumps({})` is `{}` and `json.loads("{}")` gives it back; `json.loads("")` raises. */
  ghost predicate Lawful(c: Codec) {
    && (forall s :: c.parse(s).Some? ==> WellFormed(c.parse(s).value))
    && (forall v :: '\0' !in c.dump(v) && |c.dump(v)| > 0 && !PyText.IsSpace(c.dump(v)[0]))
    && c.dump(JObj([])) == "{}"
    && c.parse("{}") == Some(JObj([]))
    && c.parse("") == None
  }

  /** `json.loads(json.dumps(v)) == v` for one value. The library promises this for values whose
      numbers are finite floats; a law over every real-valued `v` could not hold, since there are
      more reals than texts, so each reader lemma asks it of the value actually written. */
  predicate RoundTrips(c: Codec, v: Json) {
    c.parse(c.dump(v)) == Some(v)
  }

  /** The law and the round trip are consistent: a lawful codec gives back exactly the
      well-formed values, and for each of them there is a lawful codec that gives it back. */
  lemma LawfulRoundTrips(v: Json)
    ensures (exists c :: Lawful(c) && RoundTrips(c, v)) <==> WellFormed(v)
  {
    if WellFormed(v) {
      var c := Codec(
        (w: Json) => if w == JObj([]) then "{}" else "v",
        (s: string) => if s == "{}" then Some(JObj([])) else if s == "v" then Some(v) else None);
      assert WellFormed(JObj([]));
      assert Lawful(c) && RoundTrips(c, v);
    }
  }

  /** Setting one key of a well-formed object to a well-formed value keeps it well-formed. */
  lemma {:induction false} PutWellFormed(fs: Fields, k: string, v: Json)
    requires UniqueKeys(fs) && forall i :: 0 <= i < |fs| ==> WellFormed(fs[i].1)
    requires WellFormed(v)
    ensures var r := Put(fs, k, v); UniqueKeys(r) && forall i :: 0 <= i < |r| ==> WellFormed(r[i].1)
  {
    PutUnique(fs, k, v);
    if fs != [] && fs[0].0 != k {
      PutWellFormed(fs[1..], k, v);
    }
  }
}

=== FILE: listener.dfy ===
/** The listener2 monitor: every 0.1 s it reads the whole region, decodes it strictly, keeps the
    text before the first NUL character and parses it; it then warns when its own id has no
    entry and prints the telemetry of every other drone. An exception other than the two it
    catches ends the listening thread. */
module Listener {
  import opened Wrappers
  import opened Seqs
  import opened Json
  import Utf8
  import Snapshot
  import Drone2
  import Geo

  /** What `read_shared_memory` does: return a value (None when the region does not exist or
      the text is not JSON) or raise, which nothing catches. */
  datatype ReadResult = Returned(value: Option<Json>) | Crashed

  /** `read_shared_memory`; `region` is None where no region of that name exists. The whole
      region is decoded before it is split, so an ill-formed byte after the terminator raises
      UnicodeDecodeError, which is neither of the two exceptions caught. */
  function ReadRegion(c: Codec, region: Option<seq<Snapshot.byte>>): (r: ReadResult)
    ensures region.None? ==> r == Returned(None)
    ensures region.Some? ==> (r == Crashed <==> Utf8.DecodeStrict(region.value).None?)
  {
    match region
    case None => Returned(None)
    case Some(buf) =>
      match Utf8.DecodeStrict(buf)
      case None => Crashed
      case Some(text) => Returned(c.parse(BeforeFirst(text, '\0')))
  }

  /** Under the JSON library's law, every value the listener reads is well formed. */
  lemma ReadRegionWellFormed(c: Codec, region: Option<seq<Snapshot.byte>>)
    requires Lawful(c)
    ensures var r := ReadRegion(c, region); r.Returned? && r.value.Some? ==> WellFormed(r.value.value)
  {
  }

  /** The test an entry passes to be printed: another drone's. */
  function NotOwn(myId: string): ((string, Json)) -> bool {
    (p: (string, Json)) => p.0 != myId
  }

  /** The other drones' entries, in order. */
  function Peers(fs: Fields, myId: string): (r: Fields)
    ensures forall p :: p in r <==> p in fs && p.0 != myId
    ensures |r| <= |fs|
  {
    if fs == [] then []
    else
      assert forall i :: 1 <= i < |fs| ==> fs[i] == fs[1..][i - 1];
      var rest := Peers(fs[1..], myId);
      if fs[0].0 == myId then rest else [fs[0]] + rest
  }

  /** The other drones' entries keep the region's dict order: they are the entries at the
      positions whose key is not this drone's, in increasing order, so none is shown twice. */
  lemma {:induction false} PeersInOrder(fs: Fields, myId: string)
    ensures Picks(Peers(fs, myId), fs, Positions(fs, NotOwn(myId)))
  {
    if fs != [] {
      var rest := Peers(fs[1..], myId);
      PeersInOrder(fs[1..], myId);
      PicksConsPositions(fs[0], rest, fs[1..], NotOwn(myId));
      assert fs == [fs[0]] + fs[1..];
      assert Peers(fs, myId) == if NotOwn(myId)(fs[0]) then [fs[0]] + rest else rest;
    }
  }

  /** The fourteen fields `print_telemetry` shows, in order. */
  const ShownKeys: seq<string> := [
    "latitude", "longitude", "absolute_altitude", "relative_altitude", "speed",
    "roll", "pitch", "yaw", "flight_mode", "battery_percent", "battery_voltage",
    "satellites_visible", "fix_type", "uptime"]

  /** The values `print_telemetry` shows for one record: `telem.get(key, "N/A")` per key. */
  function Displayed(telem: Fields): (r: seq<Json>)
    ensures |r| == |ShownKeys|
    ensures forall i :: 0 <= i < |ShownKeys| ==> r[i] == Get(telem, ShownKeys[i]).GetOr(JStr("N/A"))
  {
    seq(|ShownKeys|, i requires 0 <= i < |ShownKeys| => Get(telem, ShownKeys[i]).GetOr(JStr("N/A")))
  }

  /** The loop over `items()`: each other drone's record is printed in order; the first one
      that is not an object raises AttributeError in `telem.get`. Returns the entries printed
      and whether it raised. */
  function Show(fs: Fields, myId: string): (r: (Fields, bool))
    ensures r.1 <==> exists i :: 0 <= i < |fs| && fs[i].0 != myId && !fs[i].1.JObj?
    ensures !r.1 ==> r.0 == Peers(fs, myId)
    ensures forall p :: p in r.0 ==> p in fs && p.0 != myId && p.1.JObj?
  {
    if fs == [] then ([], false)
    else
      assert forall i :: 1 <= i < |fs| ==> fs[i] == fs[1..][i - 1];
      if fs[0].0 == myId then Show(fs[1..], myId)
      else if !fs[0].1.JObj? then ([], true)
      else
        var (rest, raised) := Show(fs[1..], myId);
        ([fs[0]] + rest, raised)
  }

  /** What one pass prints: the missing-entry warning, the records shown, and whether the pass
      raised (ending the thread). */
  datatype Pass = Pass(warned: bool, shown: Fields, crashed: bool)

  /** One pass on what was read. A falsy value prints nothing. `my_id in` raises TypeError on a
      number or a boolean; on a list or a string it works, and `.items()` then raises. */
  function Report(telemetry: Option<Json>, myId: string): (r: Pass)
    ensures telemetry.None? || !Truthy(telemetry.value) ==> r == Pass(false, [], false)
  {
    if telemetry.None? || !Truthy(telemetry.value) then Pass(false, [], false)
    else
      var t := telemetry.value;
      match Contains(t, myId)
      case None => Pass(false, [], true)
      case Some(present) =>
        if !t.JObj? then Pass(!present, [], true)
        else
          var (shown, raised) := Show(t.fields, myId);
          Pass(!present, shown, raised)
  }

  /** One pass on the region as it stands. */
  function PassOn(c: Codec, region: Option<seq<Snapshot.byte>>, myId: string): Pass {
    match ReadRegion(c, region)
    case Crashed => Pass(false, [], true)
    case Returned(t) => Report(t, myId)
  }

  /** The listening loop over the successive contents of the region: one pass each, stopping
      after the first pass that raised. */
  method Listen(c: Codec, regions: seq<Option<seq<Snapshot.byte>>>, myId: string) returns (passes: seq<Pass>)
    ensures |passes| <= |regions|
    ensures forall i :: 0 <= i < |passes| ==> passes[i] == PassOn(c, regions[i], myId)
    ensures forall i :: 0 <= i < |passes| - 1 ==> !passes[i].crashed
    ensures |passes| < |regions| ==> passes != [] && passes[|passes| - 1].crashed
  {
    passes := [];
    var i := 0;
    while i < |regions|
      invariant 0 <= i <= |regions| && |passes| == i
      invariant forall j :: 0 <= j < i ==> passes[j] == PassOn(c, regions[j], myId)
      invariant forall j :: 0 <= j < i ==> !passes[j].crashed
    {
      var p := PassOn(c, regions[i], myId);
      passes := passes + [p];
      assert passes[i] == p;
      if p.crashed {
        return;
      }
      i := i + 1;
    }
  }

  /** Where the whole region decodes, the listener reads the same as the publishers' prefix
      reader, except that an empty prefix gives nothing instead of `{}`. */
  lemma AgreesWithPrefixReader(c: Codec, buf: seq<Snapshot.byte>)
    requires Lawful(c) && Utf8.DecodeStrict(buf).Some?
    ensures BeforeFirst(buf, 0) != [] ==> ReadRegion(c, Some(buf)) == Returned(Snapshot.ReadPrefix(c, buf))
    ensures BeforeFirst(buf, 0) == [] ==> ReadRegion(c, Some(buf)) == Returned(None)
  {
    Utf8.StrictDecodeCommutesWithSplit(buf);
    if BeforeFirst(buf, 0) == [] {
      assert Utf8.DecodeStrict([]) == Some([]);
    }
  }

  /** A byte from F5 to FF anywhere in the region, even after the terminator, ends the thread. */
  lemma IllFormedByteCrashes(c: Codec, buf: seq<Snapshot.byte>, i: nat)
    requires i < |buf| && buf[i] >= 0xF5
    ensures ReadRegion(c, Some(buf)) == Crashed
  {
    if Utf8.DecodeStrict(buf).Some? {
      Utf8.StrictBytesBelowF5(buf);
    }
  }

  /** A fresh region whose last byte has become FF: the publishers and the ucak22 controller
      read it as `{}`, while the listener's thread ends. */
  lemma StrayTrailingByte(c: Codec)
    requires Lawful(c)
    ensures var buf := Snapshot.InitialContents()[Snapshot.Capacity - 1 := 0xFF];
      && Snapshot.ReadPrefix(c, buf) == Some(JObj([]))
      && ReadRegion(c, Some(buf)) == Crashed
  {
    var init := Snapshot.InitialContents();
    var buf := init[Snapshot.Capacity - 1 := 0xFF];
    var e: seq<Snapshot.byte> := [0x7B, 0x7D];
    assert buf == e + [0] + buf[3..];
    BeforeFirstOfTerminated(e, 0, buf[3..]);
    assert init == e + [0] + init[3..];
    BeforeFirstOfTerminated(e, 0, init[3..]);
    Snapshot.InitialReadsEmpty(c);
    IllFormedByteCrashes(c, buf, Snapshot.Capacity - 1);
  }

  /** Only other drones are shown, and when no record is malformed every other drone is shown,
      in dict order. */
  lemma ShowsOnlyPeers(fs: Fields, myId: string)
    ensures !Report(Some(JObj(fs)), myId).crashed ==> Report(Some(JObj(fs)), myId).shown == Peers(fs, myId)
    ensures forall p :: p in Report(Some(JObj(fs)), myId).shown ==> p.0 != myId && p in fs
  {
  }

  /** The warning appears exactly when a non-empty map lacks this drone's id; an empty map
      prints nothing, not even the warning. */
  lemma WarnsWhenOwnEntryMissing(fs: Fields, myId: string)
    ensures Report(Some(JObj(fs)), myId).warned <==> fs != [] && myId !in Keys(fs)
  {
  }

  /** A record published by Drone2_bayland is shown value by value, in the order it was built. */
  lemma ShowsDrone2Record(geo: Geo.Geometry, r: Drone2.Readings, uptime: string)
    ensures Displayed(Drone2.Record(geo, r, uptime).fields) == Drone2.RecordValues(geo, r, uptime)
  {
    var fs := Drone2.Record(geo, r, uptime).fields;
    var vs := Drone2.RecordValues(geo, r, uptime);
    assert ShownKeys == Drone2.RecordKeys;
    forall i | 0 <= i < |ShownKeys|
      ensures Get(fs, ShownKeys[i]) == Some(vs[i])
    {
      GetAt(fs, i);
    }
  }
}

=== FILE: pytext.dfy ===
/** The few Python text operations the core relies on: `str.strip()`, `str(n)` for a natural
    number, the `f"{n:02}"` format, and `int(s)` on text. */
module PyText {
  import opened Wrappers

  /** `c.isspace()`: the characters Python strips in `str.strip()` and `int()`. */
  predicate IsSpace(c: char) {
    || ('\t' <= c <= '\r') || ('\U{001C}' <= c <= '\U{001F}') || c == ' '
    || c == '\U{0085}' || c == '\U{00A0}' || c == '\U{1680}'
    || ('\U{2000}' <= c <= '\U{200A}') || c == '\U{2028}' || c == '\U{2029}'
    || c == '\U{202F}' || c == '\U{205F}' || c == '\U{3000}'
  }

  predicate IsDigit(c: char) { '0' <= c <= '9' }

  predicate AllSpace(s: string) { forall i :: 0 <= i < |s| ==> IsSpace(s[i]) }

  predicate AllDigits(s: string) { forall i :: 0 <= i < |s| ==> IsDigit(s[i]) }

  /** `s.lstrip()`. */
  function StripStart(s: string): (r: string)
    ensures |r| <= |s| && r == s[|s| - |r|..]
    ensures r == [] <==> AllSpace(s)
    ensures r != [] ==> !IsSpace(r[0])
  {
    if s != [] && IsSpace(s[0]) then StripStart(s[1..]) else s
  }

  /** `s.rstrip()`. */
  function StripEnd(s: string): (r: string)
    ensures r <= s
    ensures r == [] <==> AllSpace(s)
    ensures r != [] ==> !IsSpace(r[|r| - 1])
  {
    if s != [] && IsSpace(s[|s| - 1]) then StripEnd(s[..|s| - 1]) else s
  }

  /** `s.strip()`: empty exactly when `s` is blank. */
  function Strip(s: string): (r: string)
    ensures r == [] <==> AllSpace(s)
    ensures r != [] ==> !IsSpace(r[0]) && !IsSpace(r[|r| - 1])
  {
    var t := StripStart(s);
    assert t != [] ==> !IsSpace(t[0]) && !AllSpace(t);
    var r := StripEnd(t);
    assert r != [] ==> r[0] == t[0];
    r
  }

  function DigitChar(d: nat): (c: char)
    requires d < 10
    ensures IsDigit(c)
  {
    ('0' as int + d) as char
  }

  /** The value of a string of decimal digits, most significant first. */
  function DigitsValue(s: string): nat
    requires AllDigits(s)
  {
    if s == [] then 0
    else DigitsValue(s[..|s| - 1]) * 10 + (s[|s| - 1] as int - '0' as int)
  }

  /** `str(n)` for a natural number. */
  function Digits(n: nat): (r: string)
    ensures |r| >= 1 && AllDigits(r)
    ensures n < 10 <==> |r| == 1
  {
    if n < 10 then [DigitChar(n)] else Digits(n / 10) + [DigitChar(n % 10)]
  }

  /** `f"{n:02}"`: `str(n)` with a leading zero when it has a single digit. */
  function Pad2(n: nat): (r: string)
    ensures AllDigits(r) && |r| >= 2
    ensures n < 100 ==> |r| == 2
  {
    if n < 10 then "0" + Digits(n) else Digits(n)
  }

  /** `str(n)` denotes `n`. */
  lemma {:induction false} DigitsDenote(n: nat)
    ensures DigitsValue(Digits(n)) == n
  {
    if n >= 10 {
      var d := Digits(n);
      assert d[..|d| - 1] == Digits(n / 10);
      DigitsDenote(n / 10);
    }
  }

  /** A leading zero does not change the value of a digit string. */
  lemma {:induction false} LeadingZero(s: string)
    requires AllDigits(s)
    ensures AllDigits("0" + s) && DigitsValue("0" + s) == DigitsValue(s)
    decreases |s|
  {
    if s != [] {
      assert ("0" + s)[..|s|] == "0" + s[..|s| - 1];
      LeadingZero(s[..|s| - 1]);
    }
  }

  /** `f"{n:02}"` denotes `n`. */
  lemma Pad2Denotes(n: nat)
    ensures DigitsValue(Pad2(n)) == n
  {
    DigitsDenote(n);
    if n < 10 { LeadingZero(Digits(n)); }
  }

  /** `int(s)` on text, base 10, for ASCII digits: surrounding whitespace is skipped, a sign
      is optional, and single underscores may separate digits. None where Python raises
      ValueError. The text is read from the front, one character at a time. */
  function ParseInt(s: string): Option<int>
    decreases |s|
  {
    if s == [] then None
    else if IsSpace(s[0]) then ParseInt(s[1..])
    else if s[0] == '-' then
      match Magnitude(s[1..], 0)
      case Some(n) => Some(-(n as int))
      case None => None
    else if s[0] == '+' then Magnitude(s[1..], 0)
    else Magnitude(s, 0)
  }

  /** A run of digit groups that must start with a digit, its value so far being `acc`. */
  function Magnitude(s: string, acc: nat): Option<nat>
    decreases |s|, 1
  {
    if s != [] && IsDigit(s[0]) then DigitRun(s[1..], acc * 10 + DigitValue(s[0])) else None
  }

  /** The rest of a run after a digit: more digits, an underscore followed by a digit, or
      trailing whitespace up to the end. */
  function DigitRun(s: string, acc: nat): Option<nat>
    decreases |s|, 0
  {
    if s == [] then Some(acc)
    else if IsDigit(s[0]) then DigitRun(s[1..], acc * 10 + DigitValue(s[0]))
    else if s[0] == '_' then Magnitude(s[1..], acc)
    else if AllSpace(s) then Some(acc)
    else None
  }

  function DigitValue(c: char): nat
    requires IsDigit(c)
  {
    c as int - '0' as int
  }

  function Pow10(n: nat): (r: nat)
    ensures r >= 1
  {
    if n == 0 then 1 else 10 * Pow10(n - 1)
  }

  lemma Distribute(acc: nat, v: nat, p: nat)
    ensures (acc * 10 + v) * p == acc * (10 * p) + v * p
  {
  }

  lemma ShiftDigit(v: nat, p: nat, middle: nat, last: nat)
    ensures (v * p + middle) * 10 + last == v * (10 * p) + (middle * 10 + last)
  {
  }

  /** The value of a digit string, read from its first digit instead of its last. */
  lemma {:induction false} DigitsValueFront(d: string)
    requires AllDigits(d) && d != []
    ensures DigitsValue(d) == DigitValue(d[0]) * Pow10(|d| - 1) + DigitsValue(d[1..])
    decreases |d|
  {
    if |d| > 1 {
      var init, rest := d[..|d| - 1], d[1..];
      DigitsValueFront(init);
      assert init[1..] == rest[..|rest| - 1];
      assert init[0] == d[0] && rest[|rest| - 1] == d[|d| - 1];
      assert DigitsValue(d) == DigitsValue(init) * 10 + DigitValue(d[|d| - 1]);
      assert DigitsValue(rest) == DigitsValue(init[1..]) * 10 + DigitValue(d[|d| - 1]);
      ShiftDigit(DigitValue(d[0]), Pow10(|d| - 2), DigitsValue(init[1..]), DigitValue(d[|d| - 1]));
    }
  }

  /** A run of digits adds its value below what was read before it. */
  lemma {:induction false} RunValue(d: string, acc: nat)
    requires AllDigits(d)
    ensures DigitRun(d, acc) == Some(acc * Pow10(|d|) + DigitsValue(d))
    decreases |d|
  {
    if d != [] {
      var v, p := DigitValue(d[0]), Pow10(|d| - 1);
      assert DigitRun(d, acc) == DigitRun(d[1..], acc * 10 + v);
      RunValue(d[1..], acc * 10 + v);
      DigitsValueFront(d);
      assert Pow10(|d|) == 10 * p;
      Distribute(acc, v, p);
    }
  }

  lemma DigitNotSpace(c: char)
    requires IsDigit(c)
    ensures !IsSpace(c)
  {
  }

  /** `int(s)` reads a non-empty string of ASCII digits as the number it denotes. */
  lemma ParseAllDigits(d: string)
    requires AllDigits(d) && d != []
    ensures ParseInt(d) == Some(DigitsValue(d))
  {
    DigitNotSpace(d[0]);
    RunValue(d[1..], DigitValue(d[0]));
    DigitsValueFront(d);
  }

  /** `int(str(n)) == n`. */
  lemma ParseDigits(n: nat)
    ensures ParseInt(Digits(n)) == Some(n)
  {
    DigitsDenote(n);
    ParseAllDigits(Digits(n));
  }
}

=== FILE: snapshot.dfy ===
/** The shared snapshot buffer "telemetry_shared": a region of exactly 4096 bytes holding the
    UTF-8 JSON text of one object that maps each drone id to that drone's latest telemetry
    record. The text is followed by zero bytes up to the end of the region. Every process that
    publishes does a read-modify-write: it reads the object, sets its own entry, and writes the
    result back if it fits. */
module Snapshot {
  import opened Wrappers
  import opened Seqs
  import opened Json
  import Utf8

  type byte = Utf8.byte

  /** `SHM_SIZE`. */
  const Capacity: nat := 4096

  /** The region after a publisher wrote `payload`: the payload, then zero bytes to the end. */
  function Frame(payload: seq<byte>): (r: seq<byte>)
    requires |payload| <= Capacity
    ensures |r| == Capacity && r[..|payload|] == payload
    ensures forall i :: |payload| <= i < Capacity ==> r[i] == 0
  {
    payload + Repeat(0, Capacity - |payload|)
  }

  /** A freshly created region: the two bytes of `{}`, then zero bytes. */
  function InitialContents(): seq<byte> {
    Frame([0x7B, 0x7D])
  }

  /** The bytes a publisher writes for the object `v`: `json.dumps(v).encode("utf-8")`. */
  function Encoded(c: Codec, v: Json): seq<byte> {
    Utf8.Encode(c.dump(v))
  }

  /** The read shared by both publishers and by the ucak22 controller: the bytes before the
      first zero byte, `{}` when there are none, otherwise the strictly decoded text parsed as
      JSON. None where decoding or parsing raises. */
  function ReadPrefix(c: Codec, buf: seq<byte>): (r: Option<Json>)
    ensures BeforeFirst(buf, 0) == [] ==> r == Some(JObj([]))
    ensures Utf8.DecodeStrict(BeforeFirst(buf, 0)).None? ==> r.None?
  {
    var raw := BeforeFirst(buf, 0);
    if raw == [] then Some(JObj([]))
    else match Utf8.DecodeStrict(raw)
      case None => None
      case Some(text) => c.parse(text)
  }

  /** Under the JSON library's law, every value the prefix reader gives is well formed. */
  lemma ReadPrefixWellFormed(c: Codec, buf: seq<byte>)
    requires Lawful(c)
    ensures ReadPrefix(c, buf).Some? ==> WellFormed(ReadPrefix(c, buf).value)
  {
  }

  /** `current[drone_id] = record`: None where `current` is not a dict, where Python raises
      TypeError. */
  function SetEntry(current: Json, id: string, record: Json): (r: Option<Json>)
    ensures r.Some? <==> current.JObj?
    ensures r.Some? ==> r.value.JObj? && Get(r.value.fields, id) == Some(record)
    ensures r.Some? ==> forall k :: k != id ==> Get(r.value.fields, k) == Get(current.fields, k)
  {
    match current
    case JObj(fs) => Some(JObj(Put(fs, id, record)))
    case _ => None
  }

  /** The object a publisher means to write: the decoded region, or `{}` where reading failed,
      with the publisher's own entry set. */
  function Merged(c: Codec, buf: seq<byte>, id: string, record: Json): Option<Json> {
    SetEntry(ReadPrefix(c, buf).GetOr(JObj([])), id, record)
  }

  /** The size test before writing: ucak22.py writes when the payload is shorter than the
      region, Drone2_bayland.py also when it is exactly as long. */
  datatype Guard = BelowCapacity | UpToCapacity

  predicate Fits(g: Guard, n: nat) {
    match g
    case BelowCapacity => n < Capacity
    case UpToCapacity => n <= Capacity
  }

  datatype PublishStatus =
    | Written      // the region now holds the merged object
    | TooLarge     // the encoded object did not fit; the region is unchanged
    | NotAMap      // the region held JSON that is not an object; TypeError, region unchanged

  /** The outcome of one read-modify-write, and the region after it. */
  function Publish(c: Codec, g: Guard, buf: seq<byte>, id: string, record: Json): (r: (PublishStatus, seq<byte>))
    ensures r.0 != Written ==> r.1 == buf
    ensures r.0 == Written ==> |r.1| == Capacity
  {
    match Merged(c, buf, id, record)
    case None => (NotAMap, buf)
    case Some(m) =>
      var e := Encoded(c, m);
      if Fits(g, |e|) then (Written, Frame(e)) else (TooLarge, buf)
  }

  /** The region as seen by the processes that share it. Every process that opens the region by
      name gets the same object, so a write by one is seen by the others. */
  class SharedRegion {
    const buf: array<byte>

    ghost predicate Valid() reads this {
      buf.Length == Capacity
    }

    /** `SharedMemory(create=True)` followed by writing `{}` and zero padding. */
    constructor Create()
      ensures Valid() && fresh(buf)
      ensures buf[..] == InitialContents()
    {
      buf := new byte[Capacity];
      new;
      WriteFrame([0x7B, 0x7D]);
    }

    /** `buf[:len(p)] = p` and `buf[len(p):] = b'\x00' * (SHM_SIZE - len(p))`. */
    method WriteFrame(payload: seq<byte>)
      requires Valid() && |payload| <= Capacity
      modifies buf
      ensures buf[..] == Frame(payload)
    {
      var i := 0;
      while i < |payload|
        invariant 0 <= i <= |payload|
        invariant buf[..i] == payload[..i]
      {
        buf[i] := payload[i];
        i := i + 1;
      }
      while i < Capacity
        invariant |payload| <= i <= Capacity
        invariant buf[..|payload|] == payload
        invariant forall j :: |payload| <= j < i ==> buf[j] == 0
      {
        buf[i] := 0;
        i := i + 1;
      }
      assert buf[..] == Frame(payload);
    }

    /** One read-modify-write by the publisher `id` with the size test `g`. */
    method PublishEntry(c: Codec, g: Guard, id: string, record: Json) returns (status: PublishStatus)
      requires Valid()
      modifies buf
      ensures (status, buf[..]) == Publish(c, g, old(buf[..]), id, record)
    {
      var merged := Merged(c, buf[..], id, record);
      if merged.None? {
        return NotAMap;
      }
      var e := Encoded(c, merged.value);
      if Fits(g, |e|) {
        WriteFrame(e);
        status := Written;
      } else {
        status := TooLarge;
      }
    }
  }

  /** Open the region by name: create and initialise it when no region of that name exists,
      otherwise attach to the existing one and leave its contents alone. */
  method Open(existing: SharedRegion?) returns (region: SharedRegion)
    requires existing != null ==> existing.Valid()
    ensures region.Valid()
    ensures existing != null ==> region == existing
    ensures existing == null ==> fresh(region.buf) && region.buf[..] == InitialContents()
  {
    if existing == null {
      region := new SharedRegion.Create();
    } else {
      region := existing;
    }
  }

  /** What a publisher writes is what a reader of the prefix gets back: the JSON codec round
      trip, with the payload free of zero bytes so that the split finds its end. */
  lemma ReadBack(c: Codec, v: Json)
    requires Lawful(c) && RoundTrips(c, v)
    requires |Encoded(c, v)| <= Capacity
    ensures ReadPrefix(c, Frame(Encoded(c, v))) == Some(v)
  {
    var text := c.dump(v);
    var e := Encoded(c, v);
    Utf8.EncodeNulFree(text);
    assert text != [] && e != [];
    var f := Frame(e);
    if |e| < Capacity {
      assert f == e + [0] + f[|e| + 1..];
      BeforeFirstOfTerminated(e, 0, f[|e| + 1..]);
    } else {
      assert f == e;
    }
    Utf8.DecodeEncode(text);
  }

  /** A freshly created region reads as the empty map. */
  lemma InitialReadsEmpty(c: Codec)
    requires Lawful(c)
    ensures ReadPrefix(c, InitialContents()) == Some(JObj([]))
  {
    var e: seq<byte> := [0x7B, 0x7D];
    var f := InitialContents();
    assert f == e + [0] + f[3..];
    BeforeFirstOfTerminated(e, 0, f[3..]);
    assert Utf8.Encode("}") == [0x7D];
    assert Utf8.Encode("{}") == e;
    Utf8.DecodeEncode("{}");
  }

  /** A written region holds the payload, then only zero bytes; under the `< 4096` test a zero
      byte always ends the payload, under `<= 4096` a payload of exactly 4096 bytes leaves none. */
  lemma WrittenFraming(c: Codec, g: Guard, buf: seq<byte>, id: string, record: Json)
    requires Publish(c, g, buf, id, record).0 == Written
    ensures var e := Encoded(c, Merged(c, buf, id, record).value);
      var after := Publish(c, g, buf, id, record).1;
      && |e| <= Capacity && after[..|e|] == e
      && (forall i :: |e| <= i < Capacity ==> after[i] == 0)
      && (g == BelowCapacity ==> |e| < Capacity && after[|e|] == 0)
      && (g == UpToCapacity && |e| == Capacity ==> after == e)
  {
  }

  /** The size test: too large means the region is left as it was, and the two publishers
      differ exactly on a payload of 4096 bytes. */
  lemma SizeGuard(c: Codec, buf: seq<byte>, id: string, record: Json)
    requires Merged(c, buf, id, record).Some?
    ensures var n := |Encoded(c, Merged(c, buf, id, record).value)|;
      && (Publish(c, BelowCapacity, buf, id, record).0 == Written <==> n < Capacity)
      && (Publish(c, UpToCapacity, buf, id, record).0 == Written <==> n <= Capacity)
      && (n == Capacity ==> Publish(c, BelowCapacity, buf, id, record) == (TooLarge, buf))
  {
  }

  /** After a write the region reads back as the merged object: the publisher's own entry is the
      new record and every other entry that was read is still there, unchanged. */
  lemma PublishKeepsPeers(c: Codec, g: Guard, buf: seq<byte>, id: string, record: Json, fs: Fields)
    requires Lawful(c)
    requires ReadPrefix(c, buf) == Some(JObj(fs))
    requires Publish(c, g, buf, id, record).0 == Written
    requires RoundTrips(c, Merged(c, buf, id, record).value)
    ensures var after := ReadPrefix(c, Publish(c, g, buf, id, record).1);
      && after.Some? && after.value.JObj?
      && Get(after.value.fields, id) == Some(record)
      && forall k :: k != id ==> Get(after.value.fields, k) == Get(fs, k)
  {
    MergedReadsBack(c, g, buf, id, record);
  }

  /** Where the prefix could not be decoded, a write replaces it by the publisher's entry alone:
      the other drones' entries are dropped from that write. */
  lemma UnreadablePrefixDropsPeers(c: Codec, g: Guard, buf: seq<byte>, id: string, record: Json)
    requires Lawful(c)
    requires ReadPrefix(c, buf) == None
    requires Publish(c, g, buf, id, record).0 == Written
    requires RoundTrips(c, Merged(c, buf, id, record).value)
    ensures ReadPrefix(c, Publish(c, g, buf, id, record).1) == Some(JObj([(id, record)]))
  {
    MergedReadsBack(c, g, buf, id, record);
  }

  /** A write stores the merged object so that it reads back whole. */
  lemma MergedReadsBack(c: Codec, g: Guard, buf: seq<byte>, id: string, record: Json)
    requires Lawful(c)
    requires Publish(c, g, buf, id, record).0 == Written
    requires RoundTrips(c, Merged(c, buf, id, record).value)
    ensures ReadPrefix(c, Publish(c, g, buf, id, record).1) == Merged(c, buf, id, record)
  {
    ReadBack(c, Merged(c, buf, id, record).value);
  }
}

=== FILE: telemetry.dfy ===
/** The ucak22 telemetry collector: six updaters, one per telemetry stream, each write their
    own keys of one shared dict `last`, and a publisher copies `last` into the shared region as
    this drone's entry. The updaters run as asyncio tasks under one lock, so their effect is a
    sequence of samples applied one at a time in some interleaving. */
module Telemetry {
  import opened Wrappers
  import opened Json
  import opened Geo
  import Snapshot

  /** One reading from one telemetry stream. */
  datatype Sample =
    | PositionSample(latitude: real, longitude: real, absoluteAltitude: real)
    | VelocitySample(north: real, east: real)
    | AttitudeSample(roll: real, pitch: real, yaw: real)
    | FlightModeSample(mode: string)
    | BatterySample(remaining: real)
    | RawGpsSample(satellites: Option<int>)   // None where the reading has no such attribute

  /** The stream, and so the updater, a sample comes from. */
  datatype Group = Position | Velocity | Attitude | FlightMode | Battery | RawGps

  function GroupOf(s: Sample): Group {
    match s
    case PositionSample(_, _, _) => Position
    case VelocitySample(_, _) => Velocity
    case AttitudeSample(_, _, _) => Attitude
    case FlightModeSample(_) => FlightMode
    case BatterySample(_) => Battery
    case RawGpsSample(_) => RawGps
  }

  /** The keys of `last` each updater writes, in the order it writes them. */
  function GroupKeys(g: Group): seq<string> {
    match g
    case Position => ["latitude", "longitude", "absolute_altitude"]
    case Velocity => ["speed"]
    case Attitude => ["roll", "pitch", "yaw"]
    case FlightMode => ["flight_mode"]
    case Battery => ["battery_percent"]
    case RawGps => ["satellites_visible"]
  }

  /** The values an updater writes, one for each of its keys: the speed is the horizontal
      norm of the north and east velocities, the battery level is scaled to a percentage, and a
      missing satellite count is written as the string "N/A". */
  function Values(geo: Geometry, s: Sample): (vs: seq<Json>)
    ensures |vs| == |GroupKeys(GroupOf(s))|
  {
    match s
    case PositionSample(lat, lon, alt) => [JNum(lat), JNum(lon), JNum(alt)]
    case VelocitySample(north, east) => [JNum(geo.hypot(north, east))]
    case AttitudeSample(roll, pitch, yaw) => [JNum(roll), JNum(pitch), JNum(yaw)]
    case FlightModeSample(mode) => [JStr(mode)]
    case BatterySample(remaining) => [JNum(remaining * 100.0)]
    case RawGpsSample(satellites) =>
      [if satellites.Some? then JNum(satellites.value as real) else JStr("N/A")]
  }

  predicate Distinct(ks: seq<string>) {
    forall i, j :: 0 <= i < j < |ks| ==> ks[i] != ks[j]
  }

  /** `d[k] = v` for each key in turn. */
  function PutAll(fs: Fields, ks: seq<string>, vs: seq<Json>): (r: Fields)
    requires |ks| == |vs|
    ensures forall k :: k !in ks ==> Get(r, k) == Get(fs, k)
    ensures Distinct(ks) ==> forall i :: 0 <= i < |ks| ==> Get(r, ks[i]) == Some(vs[i])
    decreases |ks|
  {
    if ks == [] then fs
    else
      var r := PutAll(Put(fs, ks[0], vs[0]), ks[1..], vs[1..]);
      assert forall i :: 1 <= i < |ks| ==> ks[i] == ks[1..][i - 1] && vs[i] == vs[1..][i - 1];
      r
  }

  /** One updater step: the sample's keys take its values. */
  function ApplySample(geo: Geometry, last: Fields, s: Sample): Fields {
    PutAll(last, GroupKeys(GroupOf(s)), Values(geo, s))
  }

  /** The samples applied in order, the last one last. */
  function ApplyAll(geo: Geometry, last: Fields, events: seq<Sample>): Fields {
    if events == [] then last
    else ApplySample(geo, ApplyAll(geo, last, events[..|events| - 1]), events[|events| - 1])
  }

  /** The latest sample of group `g` among `events`. */
  function LastOfGroup(events: seq<Sample>, g: Group): (r: Option<Sample>)
    ensures r.Some? ==> r.value in events && GroupOf(r.value) == g
    ensures r.None? <==> forall i :: 0 <= i < |events| ==> GroupOf(events[i]) != g
  {
    if events == [] then None
    else if GroupOf(events[|events| - 1]) == g then Some(events[|events| - 1])
    else LastOfGroup(events[..|events| - 1], g)
  }

  /** No key belongs to two updaters. */
  lemma GroupsDisjoint(g1: Group, g2: Group, k: string)
    requires g1 != g2 && k in GroupKeys(g1)
    ensures k !in GroupKeys(g2)
  {
  }

  /** An updater writes its own keys, each to the sample's value, and no other key. */
  lemma WritesOwnKeys(geo: Geometry, last: Fields, s: Sample)
    ensures var r := ApplySample(geo, last, s);
      && (forall k :: k !in GroupKeys(GroupOf(s)) ==> Get(r, k) == Get(last, k))
      && (forall i :: 0 <= i < |GroupKeys(GroupOf(s))| ==>
            Get(r, GroupKeys(GroupOf(s))[i]) == Some(Values(geo, s)[i]))
  {
    assert Distinct(GroupKeys(GroupOf(s)));
  }

  /** Samples from different updaters commute: whichever runs first, every key reads the same. */
  lemma SamplesCommute(geo: Geometry, last: Fields, s1: Sample, s2: Sample, k: string)
    requires GroupOf(s1) != GroupOf(s2)
    ensures Get(ApplySample(geo, ApplySample(geo, last, s1), s2), k)
         == Get(ApplySample(geo, ApplySample(geo, last, s2), s1), k)
  {
    WritesOwnKeys(geo, last, s1);
    WritesOwnKeys(geo, last, s2);
    WritesOwnKeys(geo, ApplySample(geo, last, s1), s2);
    WritesOwnKeys(geo, ApplySample(geo, last, s2), s1);
    if k in GroupKeys(GroupOf(s1)) {
      GroupsDisjoint(GroupOf(s1), GroupOf(s2), k);
    } else if k in GroupKeys(GroupOf(s2)) {
      GroupsDisjoint(GroupOf(s2), GroupOf(s1), k);
    }
  }

  /** Two writes to distinct keys commute exactly, key order included, once one of the keys is
      present: an existing key is overwritten in place. */
  lemma {:induction false} PutCommutes(fs: Fields, a: string, x: Json, b: string, y: Json)
    requires a != b && (a in Keys(fs) || b in Keys(fs))
    ensures Put(Put(fs, a, x), b, y) == Put(Put(fs, b, y), a, x)
  {
    if fs[0].0 != a && fs[0].0 != b {
      assert Keys(fs) == [fs[0].0] + Keys(fs[1..]);
      PutCommutes(fs[1..], a, x, b, y);
    }
  }

  /** A write to a key that is present can be moved past writes to other keys. */
  lemma {:induction false} PutPastAll(fs: Fields, a: string, x: Json, ks: seq<string>, vs: seq<Json>)
    requires |ks| == |vs| && a in Keys(fs) && a !in ks
    ensures PutAll(Put(fs, a, x), ks, vs) == Put(PutAll(fs, ks, vs), a, x)
    decreases |ks|
  {
    if ks != [] {
      PutCommutes(fs, a, x, ks[0], vs[0]);
      PutKeys(fs, ks[0], vs[0]);
      PutPastAll(Put(fs, ks[0], vs[0]), a, x, ks[1..], vs[1..]);
    }
  }

  /** Two key lists written one after the other commute exactly once the first list's keys are
      all present. */
  lemma {:induction false} PutAllCommute(fs: Fields, ks1: seq<string>, vs1: seq<Json>, ks2: seq<string>, vs2: seq<Json>)
    requires |ks1| == |vs1| && |ks2| == |vs2|
    requires forall k :: k in ks1 ==> k in Keys(fs) && k !in ks2
    ensures PutAll(PutAll(fs, ks1, vs1), ks2, vs2) == PutAll(PutAll(fs, ks2, vs2), ks1, vs1)
    decreases |ks1|
  {
    if ks1 != [] {
      var fs' := Put(fs, ks1[0], vs1[0]);
      PutKeys(fs, ks1[0], vs1[0]);
      PutAllCommute(fs', ks1[1..], vs1[1..], ks2, vs2);
      PutPastAll(fs, ks1[0], vs1[0], ks2, vs2);
      assert PutAll(fs', ks2, vs2) == Put(PutAll(fs, ks2, vs2), ks1[0], vs1[0]);
    }
  }

  /** Once an updater's keys are in `last`, its sample and one from another updater give the
      same dict in either order, key order included, so the published text is the same too. */
  lemma SamplesCommuteExactly(geo: Geometry, last: Fields, s1: Sample, s2: Sample)
    requires GroupOf(s1) != GroupOf(s2)
    requires forall k :: k in GroupKeys(GroupOf(s1)) ==> k in Keys(last)
    ensures ApplySample(geo, ApplySample(geo, last, s1), s2) == ApplySample(geo, ApplySample(geo, last, s2), s1)
  {
    forall k | k in GroupKeys(GroupOf(s1)) ensures k !in GroupKeys(GroupOf(s2)) {
      GroupsDisjoint(GroupOf(s1), GroupOf(s2), k);
    }
    PutAllCommute(last, GroupKeys(GroupOf(s1)), Values(geo, s1), GroupKeys(GroupOf(s2)), Values(geo, s2));
  }

  /** Whatever the interleaving, each key holds the value from the latest sample of its
      updater, or its old value when that updater produced no sample. */
  lemma {:induction false} LatestSampleWins(geo: Geometry, last: Fields, events: seq<Sample>, g: Group, i: nat)
    requires i < |GroupKeys(g)|
    ensures Get(ApplyAll(geo, last, events), GroupKeys(g)[i]) ==
      match LastOfGroup(events, g)
      case Some(s) => Some(Values(geo, s)[i])
      case None => Get(last, GroupKeys(g)[i])
  {
    if events != [] {
      var init, s := events[..|events| - 1], events[|events| - 1];
      var k := GroupKeys(g)[i];
      LatestSampleWins(geo, last, init, g, i);
      WritesOwnKeys(geo, ApplyAll(geo, last, init), s);
      if GroupOf(s) != g {
        GroupsDisjoint(g, GroupOf(s), k);
      }
    }
  }

  /** Keys that no updater writes keep their old values. */
  lemma {:induction false} OtherKeysUntouched(geo: Geometry, last: Fields, events: seq<Sample>, k: string)
    requires forall g: Group :: k !in GroupKeys(g)
    ensures Get(ApplyAll(geo, last, events), k) == Get(last, k)
  {
    if events != [] {
      var init, s := events[..|events| - 1], events[|events| - 1];
      OtherKeysUntouched(geo, last, init, k);
      WritesOwnKeys(geo, ApplyAll(geo, last, init), s);
    }
  }

  /** Two interleavings that end with the same latest sample from every updater agree on every
      key. */
  lemma InterleavingsAgree(geo: Geometry, last: Fields, e1: seq<Sample>, e2: seq<Sample>, k: string)
    requires forall g: Group :: LastOfGroup(e1, g) == LastOfGroup(e2, g)
    ensures Get(ApplyAll(geo, last, e1), k) == Get(ApplyAll(geo, last, e2), k)
  {
    match OwnerOf(k)
    case Some(g) =>
      var j :| 0 <= j < |GroupKeys(g)| && GroupKeys(g)[j] == k;
      LatestSampleWins(geo, last, e1, g, j);
      LatestSampleWins(geo, last, e2, g, j);
    case None =>
      OtherKeysUntouched(geo, last, e1, k);
      OtherKeysUntouched(geo, last, e2, k);
  }

  /** The updater that writes key `k`, if any. */
  function OwnerOf(k: string): (r: Option<Group>)
    ensures r.Some? ==> k in GroupKeys(r.value)
    ensures r.None? ==> forall g: Group :: k !in GroupKeys(g)
  {
    if k in GroupKeys(Position) then Some(Position)
    else if k in GroupKeys(Velocity) then Some(Velocity)
    else if k in GroupKeys(Attitude) then Some(Attitude)
    else if k in GroupKeys(FlightMode) then Some(FlightMode)
    else if k in GroupKeys(Battery) then Some(Battery)
    else if k in GroupKeys(RawGps) then Some(RawGps)
    else None
  }

  /** The collector task of one drone. */
  class Collector {
    var last: Fields
    var running: bool
    const region: Snapshot.SharedRegion
    const id: string
    const codec: Codec
    const geo: Geometry

    ghost predicate Valid() reads this, region {
      && region.Valid()
      && UniqueKeys(last)
      && forall i :: 0 <= i < |last| ==> WellFormed(last[i].1)
    }

    constructor (region: Snapshot.SharedRegion, id: string, codec: Codec, geo: Geometry)
      requires region.Valid()
      ensures Valid() && running
      ensures last == [] && this.region == region && this.id == id
      ensures this.codec == codec && this.geo == geo
    {
      this.region := region;
      this.id := id;
      this.codec := codec;
      this.geo := geo;
      last := [];
      running := true;
    }

    /** The updater of the sample's stream stores the sample's fields in `last`. */
    method Update(s: Sample)
      requires Valid()
      modifies this`last
      ensures Valid()
      ensures last == ApplySample(geo, old(last), s)
    {
      var ks, vs := GroupKeys(GroupOf(s)), Values(geo, s);
      var i := 0;
      ghost var start := last;
      while i < |ks|
        invariant 0 <= i <= |ks|
        invariant Valid()
        invariant PutAll(last, ks[i..], vs[i..]) == PutAll(start, ks, vs)
      {
        assert ks[i..][1..] == ks[i + 1..] && vs[i..][1..] == vs[i + 1..];
        PutWellFormed(last, ks[i], vs[i]);
        last := Put(last, ks[i], vs[i]);
        i := i + 1;
      }
    }

    /** One round of the publisher: a read-modify-write of the region with this drone's entry
        set to a copy of `last`, written only when shorter than the region. A region holding
        JSON that is not an object makes the assignment raise TypeError, which nothing catches:
        it leaves both `gather` calls, `asyncio.run` cancels the flocking controller, and the
        whole process ends. */
    method Publish() returns (status: Snapshot.PublishStatus)
      requires Valid()
      modifies region.buf, this`running
      ensures Valid()
      ensures (status, region.buf[..]) == Snapshot.Publish(codec, Snapshot.BelowCapacity, old(region.buf[..]), id, JObj(last))
      ensures running == (old(running) && status != Snapshot.NotAMap)
    {
      status := region.PublishEntry(codec, Snapshot.BelowCapacity, id, JObj(last));
      if status == Snapshot.NotAMap {
        running := false;
      }
    }
  }
}

=== FILE: utf8.dfy ===
/** UTF-8 as Python's `bytes.decode("utf-8")` and `str.encode("utf-8")` perform it (RFC 3629,
    with the well-formed byte sequences of table 3-7 of the Unicode Standard). Readers of the
    shared buffer decode bytes with it: strictly (ucak22.py, Drone2_bayland.py, listener2.py,
    flocking2.py) or with `errors='ignore'` (SwarMindGui.py). */
module Utf8 {
  import opened Wrappers
  import opened Seqs

  type byte = b: int | 0 <= b < 256

  predicate IsContinuation(b: byte) { 0x80 <= b <= 0xBF }

  /** The second byte of a three-byte sequence led by `b0`: E0 excludes overlong forms and
      ED excludes the surrogate range. */
  predicate SecondOfThree(b0: byte, b1: byte) {
    if b0 == 0xE0 then 0xA0 <= b1 <= 0xBF
    else if b0 == 0xED then 0x80 <= b1 <= 0x9F
    else IsContinuation(b1)
  }

  /** The second byte of a four-byte sequence led by `b0`: F0 excludes overlong forms and F4
      excludes code points above U+10FFFF. */
  predicate SecondOfFour(b0: byte, b1: byte) {
    if b0 == 0xF0 then 0x90 <= b1 <= 0xBF
    else if b0 == 0xF4 then 0x80 <= b1 <= 0x8F
    else IsContinuation(b1)
  }

  /** Decodes the character at the head of `b`, with the number of bytes it takes; None when the
      head is not a well-formed UTF-8 sequence. Only a lone zero byte decodes to U+0000, and the
      bytes after the lead byte are never zero. */
  function DecodeChar(b: seq<byte>): (r: Option<(char, nat)>)
    requires |b| > 0
    ensures r.Some? ==> 1 <= r.value.1 <= 4 && r.value.1 <= |b|
    ensures r.Some? ==> (r.value.0 == '\0' <==> b[0] == 0)
    ensures r.Some? ==> forall i :: 1 <= i < r.value.1 ==> b[i] >= 0x80
    ensures b[0] < 0x80 ==> r == Some((b[0] as char, 1))
  {
    var b0: int := b[0];
    if b0 < 0x80 then Some((b0 as char, 1))
    else if 0xC2 <= b0 <= 0xDF then
      if |b| >= 2 && IsContinuation(b[1])
      then Some((((b0 - 0xC0) * 64 + (b[1] as int - 0x80)) as char, 2))
      else None
    else if 0xE0 <= b0 <= 0xEF then
      if |b| >= 3 && SecondOfThree(b0, b[1]) && IsContinuation(b[2])
      then Some((((b0 - 0xE0) * 4096 + (b[1] as int - 0x80) * 64 + (b[2] as int - 0x80)) as char, 3))
      else None
    else if 0xF0 <= b0 <= 0xF4 then
      if |b| >= 4 && SecondOfFour(b0, b[1]) && IsContinuation(b[2]) && IsContinuation(b[3])
      then Some((CodePoint4(b0, b[1], b[2], b[3]) as char, 4))
      else None
    else None
  }

  /** The code point of a well-formed four-byte sequence. */
  function CodePoint4(b0: byte, b1: byte, b2: byte, b3: byte): (cp: int)
    requires 0xF0 <= b0 <= 0xF4 && SecondOfFour(b0, b1) && IsContinuation(b2) && IsContinuation(b3)
    ensures 0x10000 <= cp < 0x110000
  {
    (b0 as int - 0xF0) * 262144 + (b1 as int - 0x80) * 4096 + (b2 as int - 0x80) * 64 + (b3 as int - 0x80)
  }

  /** `bytes.decode("utf-8")`: None where Python raises UnicodeDecodeError. */
  function DecodeStrict(b: seq<byte>): Option<string>
    decreases |b|
  {
    if b == [] then Some("")
    else match DecodeChar(b)
      case None => None
      case Some((c, n)) =>
        match DecodeStrict(b[n..])
        case None => None
        case Some(t) => Some([c] + t)
  }

  /** `bytes.decode("utf-8", errors="ignore")`: ill-formed bytes are dropped. Dropping one byte
      at a time gives the same text as dropping each maximal ill-formed subpart, because the
      bytes after a lead byte are continuation bytes, which never start a character. */
  function DecodeIgnore(b: seq<byte>): string
    decreases |b|
  {
    if b == [] then ""
    else match DecodeChar(b)
      case None => DecodeIgnore(b[1..])
      case Some((c, n)) => [c] + DecodeIgnore(b[n..])
  }

  /** The UTF-8 encoding of one character. */
  function EncodeChar(c: char): (r: seq<byte>)
    ensures 1 <= |r| <= 4
    ensures r[0] == 0 <==> c == '\0'
    ensures forall i :: 1 <= i < |r| ==> r[i] >= 0x80
  {
    var cp := c as int;
    if cp < 0x80 then [cp]
    else if cp < 0x800 then [0xC0 + cp / 64, 0x80 + cp % 64]
    else if cp < 0x10000 then [0xE0 + cp / 4096, 0x80 + (cp / 64) % 64, 0x80 + cp % 64]
    else [0xF0 + cp / 262144, 0x80 + (cp / 4096) % 64, 0x80 + (cp / 64) % 64, 0x80 + cp % 64]
  }

  /** `str.encode("utf-8")`. */
  function Encode(s: string): seq<byte>
  {
    if s == [] then [] else EncodeChar(s[0]) + Encode(s[1..])
  }

  /** Decoding only looks at the bytes of the character it decodes. */
  lemma DecodeCharPrefix(b: seq<byte>, b': seq<byte>, n: nat)
    requires |b| > 0 && DecodeChar(b).Some? && DecodeChar(b).value.1 == n
    requires n <= |b'| && b'[..n] == b[..n]
    ensures DecodeChar(b') == DecodeChar(b)
  {
    assert b'[0] == b[0];
    if n >= 2 { assert b'[1] == b[1]; }
    if n >= 3 { assert b'[2] == b[2]; }
    if n >= 4 { assert b'[3] == b[3]; }
  }

  /** The arithmetic of a two-byte sequence. */
  lemma TwoByteForm(cp: int)
    requires 0x80 <= cp < 0x800
    ensures 0xC2 <= 0xC0 + cp / 64 <= 0xDF && 0x80 <= 0x80 + cp % 64 <= 0xBF
    ensures (cp / 64) * 64 + cp % 64 == cp
  {
  }

  /** The arithmetic of a three-byte sequence. */
  lemma ThreeByteForm(cp: int)
    requires 0x800 <= cp < 0x10000 && !(0xD800 <= cp < 0xE000)
    ensures 0xE0 <= 0xE0 + cp / 4096 <= 0xEF
    ensures SecondOfThree(0xE0 + cp / 4096, 0x80 + (cp / 64) % 64)
    ensures (cp / 4096) * 4096 + ((cp / 64) % 64) * 64 + cp % 64 == cp
  {
    assert (cp / 64) / 64 == cp / 4096;
  }

  /** The arithmetic of a four-byte sequence. */
  lemma FourByteForm(cp: int)
    requires 0x10000 <= cp < 0x110000
    ensures 0xF0 <= 0xF0 + cp / 262144 <= 0xF4
    ensures SecondOfFour(0xF0 + cp / 262144, 0x80 + (cp / 4096) % 64)
    ensures (cp / 262144) * 262144 + ((cp / 4096) % 64) * 4096 + ((cp / 64) % 64) * 64 + cp % 64 == cp
  {
    assert (cp / 64) / 64 == cp / 4096;
    assert (cp / 4096) / 64 == cp / 262144;
  }

  /** Each encoded character decodes back to itself, whatever follows it. */
  lemma DecodeEncodeChar(c: char, rest: seq<byte>)
    ensures DecodeChar(EncodeChar(c) + rest) == Some((c, |EncodeChar(c)|))
  {
    var cp := c as int;
    var b := EncodeChar(c) + rest;
    if cp < 0x80 {
    } else if cp < 0x800 {
      assert b[0] == 0xC0 + cp / 64 && b[1] == 0x80 + cp % 64;
      DecodeTwo(b, cp);
    } else if cp < 0x10000 {
      assert b[0] == 0xE0 + cp / 4096 && b[1] == 0x80 + (cp / 64) % 64 && b[2] == 0x80 + cp % 64;
      DecodeThree(b, cp);
    } else {
      assert b[0] == 0xF0 + cp / 262144 && b[1] == 0x80 + (cp / 4096) % 64;
      assert b[2] == 0x80 + (cp / 64) % 64 && b[3] == 0x80 + cp % 64;
      DecodeFour(b, cp);
    }
  }

  /** The two-byte form of a code point decodes back to it. */
  lemma DecodeTwo(b: seq<byte>, cp: int)
    requires 0x80 <= cp < 0x800 && |b| >= 2
    requires b[0] == 0xC0 + cp / 64 && b[1] == 0x80 + cp % 64
    ensures DecodeChar(b) == Some((cp as char, 2))
  {
    TwoByteForm(cp);
  }

  /** The three-byte form of a code point outside the surrogates decodes back to it. */
  lemma DecodeThree(b: seq<byte>, cp: int)
    requires 0x800 <= cp < 0x10000 && !(0xD800 <= cp < 0xE000) && |b| >= 3
    requires b[0] == 0xE0 + cp / 4096 && b[1] == 0x80 + (cp / 64) % 64 && b[2] == 0x80 + cp % 64
    ensures DecodeChar(b) == Some((cp as char, 3))
  {
    ThreeByteForm(cp);
  }

  /** The four-byte form of a code point decodes back to it. */
  lemma DecodeFour(b: seq<byte>, cp: int)
    requires 0x10000 <= cp < 0x110000 && |b| >= 4
    requires b[0] == 0xF0 + cp / 262144 && b[1] == 0x80 + (cp / 4096) % 64
    requires b[2] == 0x80 + (cp / 64) % 64 && b[3] == 0x80 + cp % 64
    ensures DecodeChar(b) == Some((cp as char, 4))
  {
    FourByteForm(cp);
    assert CodePoint4(b[0], b[1], b[2], b[3]) == cp;
  }

  /** Round trip: `s.encode("utf-8").decode("utf-8") == s`. */
  lemma {:induction false} DecodeEncode(s: string)
    ensures DecodeStrict(Encode(s)) == Some(s)
  {
    if s != [] {
      var e, tail := EncodeChar(s[0]), Encode(s[1..]);
      assert Encode(s) == e + tail;
      DecodeEncodeChar(s[0], tail);
      assert (e + tail)[|e|..] == tail;
      DecodeEncode(s[1..]);
      assert [s[0]] + s[1..] == s;
    }
  }

  /** A text without U+0000 encodes to bytes without a zero byte. */
  lemma {:induction false} EncodeNulFree(s: string)
    requires '\0' !in s
    ensures 0 !in Encode(s)
  {
    if s != [] {
      assert s[0] != '\0';
      EncodeNulFree(s[1..]);
    }
  }

  /** Where strict decoding succeeds, the lenient decoder gives the same text. */
  lemma {:induction false} IgnoreAgreesWithStrict(b: seq<byte>)
    requires DecodeStrict(b).Some?
    ensures DecodeIgnore(b) == DecodeStrict(b).value
    decreases |b|
  {
    if b != [] {
      var n := DecodeChar(b).value.1;
      IgnoreAgreesWithStrict(b[n..]);
    }
  }

  /** The lenient decoder produces U+0000 only from a zero byte. */
  lemma {:induction false} IgnoreNulFree(b: seq<byte>)
    requires 0 !in b
    ensures '\0' !in DecodeIgnore(b)
    decreases |b|
  {
    if b != [] {
      assert b[0] != 0;
      match DecodeChar(b)
      case None => IgnoreNulFree(b[1..]);
      case Some((c, n)) => IgnoreNulFree(b[n..]);
    }
  }

  /** Decoding a whole buffer and then cutting the text at its first U+0000 gives the same text
      as cutting the bytes at their first zero byte and decoding that prefix: a zero byte is
      always a character of its own. */
  lemma {:induction false} StrictDecodeCommutesWithSplit(b: seq<byte>)
    requires DecodeStrict(b).Some?
    ensures DecodeStrict(BeforeFirst(b, 0)) == Some(BeforeFirst(DecodeStrict(b).value, '\0'))
    decreases |b|
  {
    if b != [] && b[0] != 0 {
      var r := DecodeChar(b).value;
      var c, n := r.0, r.1;
      var tail := DecodeStrict(b[n..]).value;
      assert DecodeStrict(b).value == [c] + tail;
      forall i | 0 <= i < n ensures b[i] != 0 { }
      var p := BeforeFirst(b, 0);
      BeforeFirstSkips(b, 0, n);
      assert p == b[..n] + BeforeFirst(b[n..], 0);
      DecodeCharPrefix(b, p, n);
      assert p[n..] == BeforeFirst(b[n..], 0);
      StrictDecodeCommutesWithSplit(b[n..]);
      assert c != '\0';
      assert BeforeFirst([c] + tail, '\0') == [c] + BeforeFirst(tail, '\0') by {
        assert ([c] + tail)[1..] == tail;
      }
    }
  }

  /** No byte from F5 to FF occurs in well-formed UTF-8: a text that decodes strictly holds
      none of them anywhere. */
  lemma {:induction false} StrictBytesBelowF5(b: seq<byte>)
    requires DecodeStrict(b).Some?
    ensures forall i :: 0 <= i < |b| ==> b[i] < 0xF5
  {
    if b != [] {
      var n := DecodeChar(b).value.1;
      assert forall i :: 0 <= i < n ==> b[i] < 0xF5;
      StrictBytesBelowF5(b[n..]);
      forall i | n <= i < |b|
        ensures b[i] < 0xF5
      {
        assert b[i] == b[n..][i - n];
      }
    }
  }
}

=== FILE: wrappers.dfy ===
/** Small general-purpose definitions shared by every other module. */
module Wrappers {

  /** The conventional optional value. */
  datatype Option<+T> = None | Some(value: T) {
    /** The wrapped value, or `default` when there is none. */
    function GetOr(default: T): T {
      match this
      case Some(v) => v
      case None => default
    }
  }
}

/** Sequence helpers: the "split at the first separator" operation that every reader of the
    shared buffer performs (`split(b'\x00', 1)[0]` on bytes, `split('\x00')[0]` on text), and
    filtering that keeps the input's order, as a loop over a dict's items does. */
module Seqs {

  /** The part of `s` before the first occurrence of `x`; all of `s` when `x` does not occur. */
  function BeforeFirst<T(==)>(s: seq<T>, x: T): (r: seq<T>)
    ensures x !in r
    ensures r <= s
    ensures |r| < |s| ==> s[|r|] == x
    ensures x !in s ==> r == s
  {
    if s == [] then []
    else if s[0] == x then []
    else [s[0]] + BeforeFirst(s[1..], x)
  }

  /** Splitting `p + rest` at the first `x`, when `p` holds no `x`, keeps `p` whole. */
  lemma {:induction false} BeforeFirstAppend<T>(p: seq<T>, x: T, rest: seq<T>)
    requires x !in p
    ensures BeforeFirst(p + rest, x) == p + BeforeFirst(rest, x)
  {
    if p != [] {
      var q := p + rest;
      assert q[0] == p[0] && q[1..] == p[1..] + rest;
      BeforeFirstAppend(p[1..], x, rest);
      assert BeforeFirst(q, x) == [p[0]] + BeforeFirst(q[1..], x);
      assert p == [p[0]] + p[1..];
    } else {
      assert p + rest == rest;
    }
  }

  /** Splitting `p + [x] + rest` at the first `x` gives back `p` when `p` holds no `x`. */
  lemma BeforeFirstOfTerminated<T>(p: seq<T>, x: T, rest: seq<T>)
    requires x !in p
    ensures BeforeFirst(p + [x] + rest, x) == p
  {
    assert p + [x] + rest == p + ([x] + rest);
    BeforeFirstAppend(p, x, [x] + rest);
    assert p + [] == p;
  }

  /** When none of the first `n` elements is `x`, the split keeps all of them. */
  lemma BeforeFirstSkips<T>(s: seq<T>, x: T, n: nat)
    requires n <= |s|
    requires forall i :: 0 <= i < n ==> s[i] != x
    ensures BeforeFirst(s, x) == s[..n] + BeforeFirst(s[n..], x)
  {
    assert s == s[..n] + s[n..];
    BeforeFirstAppend(s[..n], x, s[n..]);
  }

  /** A sequence of `n` copies of `x`. */
  function Repeat<T>(x: T, n: nat): (r: seq<T>)
    ensures |r| == n
    ensures forall i :: 0 <= i < n ==> r[i] == x
  {
    if n == 0 then [] else [x] + Repeat(x, n - 1)
  }

  // ----- Filtering in order -----

  /** The indices are strictly increasing, so none is repeated. */
  predicate Increasing(ix: seq<nat>) {
    forall k, l :: 0 <= k < l < |ix| ==> ix[k] < ix[l]
  }

  /** `r` is made of the elements of `s` at the indices `ix`, in the order of `ix`. */
  ghost predicate Picks<T>(r: seq<T>, s: seq<T>, ix: seq<nat>) {
    |r| == |ix| && forall k :: 0 <= k < |ix| ==> ix[k] < |s| && r[k] == s[ix[k]]
  }

  /** Every index one further on. */
  function Shift(ix: seq<nat>): (r: seq<nat>)
    ensures |r| == |ix| && forall k :: 0 <= k < |ix| ==> r[k] == ix[k] + 1
  {
    seq(|ix|, k requires 0 <= k < |ix| => ix[k] + 1)
  }

  /** The positions of `s` whose element satisfies `p`: all of them, only them, in increasing
      order. */
  function Positions<T>(s: seq<T>, p: T -> bool): (ix: seq<nat>)
    ensures Increasing(ix)
    ensures forall k :: 0 <= k < |ix| ==> ix[k] < |s| && p(s[ix[k]])
    ensures forall i :: 0 <= i < |s| && p(s[i]) ==> i in ix
  {
    if s == [] then []
    else
      var rest := Positions(s[1..], p);
      ShiftedPositions(s, p, rest);
      (if p(s[0]) then [0] else []) + Shift(rest)
  }

  /** The step of `Positions`: the positions of `s[1..]`, shifted, with 0 in front when `s[0]`
      satisfies `p`. */
  lemma ShiftedPositions<T>(s: seq<T>, p: T -> bool, rest: seq<nat>)
    requires s != []
    requires Increasing(rest)
    requires forall k :: 0 <= k < |rest| ==> rest[k] < |s[1..]| && p(s[1..][rest[k]])
    requires forall i :: 0 <= i < |s[1..]| && p(s[1..][i]) ==> i in rest
    ensures var ix := (if p(s[0]) then [0] else []) + Shift(rest);
      && Increasing(ix)
      && (forall k :: 0 <= k < |ix| ==> ix[k] < |s| && p(s[ix[k]]))
      && (forall i :: 0 <= i < |s| && p(s[i]) ==> i in ix)
  {
    var head: seq<nat> := if p(s[0]) then [0] else [];
    var sh := Shift(rest);
    ShiftSatisfies(s, p, rest);
    ShiftComplete(s, p, rest);
    ShiftIncreasing(rest);
    ConsShifted(head, sh, s, p);
  }

  lemma ShiftIncreasing(rest: seq<nat>)
    requires Increasing(rest)
    ensures Increasing(Shift(rest)) && forall k :: 0 <= k < |rest| ==> Shift(rest)[k] > 0
  {
  }

  lemma ShiftSatisfies<T>(s: seq<T>, p: T -> bool, rest: seq<nat>)
    requires s != []
    requires forall k :: 0 <= k < |rest| ==> rest[k] < |s| - 1 && p(s[1..][rest[k]])
    ensures forall k :: 0 <= k < |rest| ==> Shift(rest)[k] < |s| && p(s[Shift(rest)[k]])
  {
    forall k | 0 <= k < |rest|
      ensures Shift(rest)[k] < |s| && p(s[Shift(rest)[k]])
    {
      assert s[1..][rest[k]] == s[rest[k] + 1];
    }
  }

  lemma ShiftComplete<T>(s: seq<T>, p: T -> bool, rest: seq<nat>)
    requires s != []
    requires forall i :: 0 <= i < |s| - 1 && p(s[1..][i]) ==> i in rest
    ensures forall i :: 1 <= i < |s| && p(s[i]) ==> i in Shift(rest)
  {
    forall i | 1 <= i < |s| && p(s[i])
      ensures i in Shift(rest)
    {
      assert s[1..][i - 1] == s[i];
      var k :| 0 <= k < |rest| && rest[k] == i - 1;
      assert Shift(rest)[k] == i;
    }
  }

  lemma ConsShifted<T>(head: seq<nat>, sh: seq<nat>, s: seq<T>, p: T -> bool)
    requires s != [] && head == (if p(s[0]) then [0] else [])
    requires Increasing(sh) && forall k :: 0 <= k < |sh| ==> 0 < sh[k] < |s| && p(s[sh[k]])
    requires forall i :: 1 <= i < |s| && p(s[i]) ==> i in sh
    ensures Increasing(head + sh)
    ensures forall k :: 0 <= k < |head + sh| ==> (head + sh)[k] < |s| && p(s[(head + sh)[k]])
    ensures forall i :: 0 <= i < |s| && p(s[i]) ==> i in head + sh
  {
    var ix := head + sh;
    assert forall k :: 0 <= k < |ix| ==> ix[k] == if k < |head| then head[k] else sh[k - |head|];
    forall i | 0 <= i < |s| && p(s[i])
      ensures i in ix
    {
      if i == 0 {
        assert ix[0] == 0;
      } else {
        var k :| 0 <= k < |sh| && sh[k] == i;
        assert ix[k + |head|] == i;
      }
    }
  }

  /** A filter result that picks exactly the satisfying positions holds exactly the satisfying
      elements. */
  lemma PicksPositions<T>(r: seq<T>, s: seq<T>, p: T -> bool)
    requires Picks(r, s, Positions(s, p))
    ensures forall x :: x in r ==> x in s && p(x)
    ensures forall i :: 0 <= i < |s| && p(s[i]) ==> s[i] in r
  {
    var ix := Positions(s, p);
    forall i | 0 <= i < |s| && p(s[i])
      ensures s[i] in r
    {
      var k :| 0 <= k < |ix| && ix[k] == i;
      assert r[k] == s[i];
    }
  }

  /** Putting an element in front of the input: a filter that keeps it puts it in front too, one
      that drops it keeps its result. */
  lemma PicksCons<T>(x: T, r: seq<T>, s: seq<T>, ix: seq<nat>)
    requires Picks(r, s, ix)
    ensures Picks([x] + r, [x] + s, [0] + Shift(ix))
    ensures Picks(r, [x] + s, Shift(ix))
  {
    assert forall k :: 0 <= k < |ix| ==> ([x] + s)[ix[k] + 1] == s[ix[k]];
  }

  /** A filter that picks the satisfying positions of `s` picks those of `[x] + s` once `x` is
      put in front of its result exactly when `x` satisfies the test. */
  lemma PicksConsPositions<T>(x: T, r: seq<T>, s: seq<T>, p: T -> bool)
    requires Picks(r, s, Positions(s, p))
    ensures Picks(if p(x) then [x] + r else r, [x] + s, Positions([x] + s, p))
  {
    var t, ix := [x] + s, Positions(s, p);
    assert t[0] == x && t[1..] == s;
    assert Positions(t, p) == (if p(x) then [0] else []) + Shift(ix);
    PicksCons(x, r, s, ix);
    if p(x) {
      assert Positions(t, p) == [0] + Shift(ix);
    } else {
      assert Positions(t, p) == Shift(ix);
    }
  }

  /** Appending an element to the input: a filter that keeps it appends it too, one that drops
      it keeps its result. */
  lemma PicksSnoc<T>(x: T, r: seq<T>, s: seq<T>, ix: seq<nat>)
    requires Picks(r, s, ix)
    ensures Picks(r + [x], s + [x], ix + [|s|])
    ensures Picks(r, s + [x], ix)
  {
  }

  /** The positions in `s + [x]` are those in `s`, then `|s|` when `x` satisfies `p`. */
  lemma {:induction false} PositionsSnoc<T>(s: seq<T>, x: T, p: T -> bool)
    ensures Positions(s + [x], p) == Positions(s, p) + (if p(x) then [|s|] else [])
  {
    if s == [] {
      assert [] + [x] == [x] && [x][1..] == [];
    } else {
      var t := s + [x];
      assert t[0] == s[0] && t[1..] == s[1..] + [x];
      var head: seq<nat> := if p(s[0]) then [0] else [];
      var tail: seq<nat> := if p(x) then [|s| - 1] else [];
      calc {
        Positions(t, p);
        head + Shift(Positions(s[1..] + [x], p));
        { PositionsSnoc(s[1..], x, p); }
        head + Shift(Positions(s[1..], p) + tail);
        { ShiftAppend(Positions(s[1..], p), tail); }
        head + Shift(Positions(s[1..], p)) + Shift(tail);
        Positions(s, p) + Shift(tail);
      }
      assert Shift(tail) == if p(x) then [|s|] else [];
    }
  }

  lemma ShiftAppend(a: seq<nat>, b: seq<nat>)
    ensures Shift(a + b) == Shift(a) + Shift(b)
  {
  }
}
